=== FILE: README.md ===
# Inventory ledger of the uniform-distribution app

The app keeps a team's kit stock in a Google spreadsheet. Each worksheet is a
table whose first column is a row ID. Three pages write to it:

- **inbound** adds stock: it merges into the line with the same item name,
  size and category, or starts a new line. It then records the event in
  `inbound_logs`.
- **distribution** hands items out: it offers the lines that have stock,
  takes the requested quantity from the chosen line when there is enough,
  and records the hand-out in `logs`.
- **inventory** shows and filters the stock. Its edit box overwrites a
  line's name and quantity, and its delete dialog removes rows by ID. The
  delete dialog is used for the journals too.

All three pages go through three helpers: `add_data`, `update_data` and
`delete_data`. They read through `get_data`.

This project models that core as pure transitions of a record store:

- `Store = map<string, Sheet>`, where a `Sheet` is a sequence of rows and
  row 0 is the header.
- A cell's `Value` is `Int` or `Str`, as gspread's `get_all_records` hands it
  back. Integer-looking text comes back as an integer, so every write passes
  through `Normalize`. `Text` is the formatted text that `find`, `row_values`
  and `col_values` see.
- A handler returns a `Run`: the store afterwards and an `Outcome`.
  - `Accepted`.
  - `Rejected(reason)`, where the page shows an error and writes nothing.
  - `Aborted`, where the handler raises part-way (a missing worksheet or
    column, or a quantity `int()` cannot read). Writes made before the
    exception stay.

Modules:

- `Decimal`: decimal text of integers and its round trip.
- `Cells`: values and rows.
- `Sheets`: the store and the helpers.
- `Ids`: how IDs behave.
- `Ledger`: the page handlers.
- `LedgerProofs`: properties of the handlers on a well-formed inventory
  worksheet. Well-formed means:
  - the inbound page's column layout;
  - strictly ascending integer IDs (`InventoryLayout`).

  Its invariants are `StockNonNegative` and `KeysUnique` (one line per item
  name, size and category). `StockOf` is the stock held under a key.

Three behaviours of the code worth knowing:

- **Next ID.** A new ID is the last ID cell plus one, not the largest ID
  plus one. So an ID can be handed out again after the bottom row is
  deleted: with IDs 1, 2, 3, deleting row 3 and adding a row gives 3 again
  (`Ids.DeletedLastIdIsReused`). While IDs ascend, the two rules agree
  (`Ids.NextIdIsFresh`).
- **Size menu.** The distribution size menu is a dict keyed by its label.
  Among lines showing the same label, the **last** one is decremented, not
  the first (`Ledger.LastShowing`).
- **Partial writes.** Writes made before an exception are not rolled back.

## Model

| member | source | states |
|---|---|---|
| Decimal.IntText | app.py:87 | the text of an integer is integer-looking, and is all digits (what `isdigit()` accepts) exactly when the integer is non-negative |
| Decimal.NatTextRoundTrip | app.py:87 | reading back the digits of a natural number gives the number |
| Decimal.IntTextRoundTrip | app.py:87 | the decimal text of an integer reads back as that integer, which is what `int(col_vals[-1])` relies on |
| Decimal.SignedTextValue | app.py:289 | `int()` reads a leading `+` as the bare digits and a leading `-` as their negation |
| Decimal.IntTextInjective | app.py:96 | two integers with the same decimal text are equal, so `find(str(id))` cannot confuse IDs |
| Cells.Normalize | app.py:75 | a value written and read back is in read form; a value already in read form is unchanged; otherwise only integer-looking text becomes the integer it spells |
| Cells.SetCell | app.py:99 | `update_cell` sets the one column, pads a short row with blanks, and keeps every other column |
| Sheets.LastFilled | app.py:86 | locates the last non-empty first-column cell, with only empty cells after it, as `col_values(1)` trims trailing blanks |
| Sheets.NextId | app.py:86-89 | the new ID is at least 1 whichever branch is taken: last ID plus one, or the fallback 1 for a header-only column or a last cell that is not all digits |
| Sheets.Appended | app.py:89-90 | the new row goes after every existing row, which are unchanged, and is the fields prefixed by the next ID, in read form |
| Sheets.AddData | app.py:82-90 | `add_data` fails exactly when the worksheet is missing; otherwise only that worksheet gets the appended row |
| Sheets.Find | app.py:96 | `find` returns the first row, header included, whose ID text equals the key's text, and none when no row shows it |
| Sheets.ColumnIndex | app.py:97-98 | `header.index(col)` is the first column with that header text, and none when there is no such column |
| Sheets.Updated | app.py:92-100 | with a missing key or column nothing changes; otherwise exactly the named cell of the first matching row takes the value and every other cell and row is unchanged |
| Sheets.UpdateData | app.py:92-100 | `update_data` fails only on a missing worksheet and touches no other worksheet |
| Sheets.Removed | app.py:102-108 | a missing key changes nothing; otherwise exactly the first matching row is removed and the rest keep their order |
| Sheets.DeleteData | app.py:102-108 | `delete_data` fails only on a missing worksheet and touches no other worksheet |
| Sheets.DeleteMany | app.py:199-207 | the delete loop keeps every other worksheet, so deleting `logs` or `inbound_logs` rows never changes `inventory` |
| Sheets.HasColumnListed | app.py:373 | a table has a column exactly when it has data rows and some header cell shows the name, as `not df.empty and col in df.columns` tests |
| Sheets.GetData | app.py:71-80 | the table holds the header and the data rows of the worksheet; a missing or empty worksheet reads as an empty table |
| Ids.FindById | app.py:96 | with ascending IDs, `find` of an integer ID succeeds exactly when a data row holds it, and then locates that row |
| Ids.NextIdFromLastCell | app.py:86-89 | the next ID is read from the last non-empty ID cell: the header alone gives 1; a non-negative integer gives it plus one; a negative integer, or text that is not all digits, gives 1; all-digit text gives its value plus one |
| Ids.NextIdOfBlankColumn | app.py:86-88 | a worksheet whose ID cells are all empty starts at ID 1 |
| Ids.NextIdFollowsLastNotLargest | app.py:86-90 | the next ID follows the bottom ID, not the largest: IDs 5 then 2, and 3 then 2, both give 3 |
| Ids.NextIdIsFresh | app.py:86-89 | with ascending IDs the next ID exceeds every live ID and equals the last ID plus one |
| Ids.AppendAdvancesNextId | app.py:86-90 | the appended row carries the next ID, and the next ID after it is one more |
| Ids.AppendKeepsIdsAscending | app.py:86-90 | `add_data` keeps IDs strictly ascending |
| Ids.UpdateKeepsIdsAscending | app.py:92-100 | `update_data` of any column but `id` keeps IDs strictly ascending |
| Ids.UpdateById | app.py:92-100 | updating by a data row's own ID changes that row's cell in the column and nothing else |
| Ids.UpdateMissingId | app.py:95-100 | updating by an ID no row holds changes nothing |
| Ids.RemoveById | app.py:102-108 | deleting an integer ID removes exactly the rows holding it (at most one) and keeps the header |
| Ids.RemoveKeepsIdsAscending | app.py:102-108 | `delete_data` keeps IDs strictly ascending |
| Ids.SurvivorsAscending | app.py:206-207 | the rows kept by a deletion still have ascending IDs |
| Ids.DeleteManyRemovesSelected | app.py:206-207 | the delete loop removes exactly the rows whose ID was selected, keeps all others in order, and keeps IDs ascending |
| Ids.DeletedLastIdIsReused | app.py:86-90 | with IDs 1, 2, 3, deleting the bottom row and adding a row hands out ID 3 again |
| Ledger.MatchKey | app.py:283-288 | the inbound lookup finds the first data row with the key; it raises when `item_name` exists but `size` or `category` does not |
| Ledger.InboundWith | app.py:279-297 | an empty item name is refused with no change; only `inventory` and `inbound_logs` can change; an accepted inbound appends exactly one `inbound_logs` row carrying the raw event, whose quantity cell is the event's quantity; a missing `size` or `category` column aborts with no write, and so does a matched line when `id` or `quantity` is missing or the quantity is not an integer |
| Ledger.LogInbound | app.py:295 | the journal write succeeds exactly when `inbound_logs` exists; it then appends the raw event under the next journal ID and changes nothing else, and otherwise changes nothing |
| Ledger.InboundAsWritten | app.py:279-295 | the page as written looks up the raw form text: with no line holding the raw key it starts a new line, and a matched line with readable `id` and integer quantity is merged |
| Ledger.Inbound | app.py:279-295 | the corrected handler looks up the key as a read returns it: with no line holding it a new line is started, and a matched line with readable `id` and integer quantity is merged |
| Ledger.MergeStock | app.py:287-290 | the merge writes only `inventory` and `inbound_logs`, and when accepted logs the raw event |
| Ledger.CreateStock | app.py:292-295 | the create path writes only `inventory` and `inbound_logs`, and when accepted logs the raw event |
| Ledger.Offered | app.py:341-343 | the offered rows are exactly those with a positive quantity in the chosen category (any category for the all-categories filter), listed in row order; a text quantity or a missing `category` raises |
| Ledger.OfferedPositions | app.py:341-343 | every row the filter accepts appears in the offered list |
| Ledger.OfferedItem | app.py:341-346 | some offered row carries the selected item exactly when some position of the offered list does |
| Ledger.OfferedShowing | app.py:346-349 | when an offered row shows the selected size entry, the search for the last showing position finds one |
| Ledger.LaterRowsShowNot | app.py:348-349 | when no later offered position shows a size entry, no later offered row shows it |
| Ledger.LastShowing | app.py:348-349 | among offered rows showing the selected size entry, the last one is picked |
| Ledger.Choose | app.py:340-354 | the chosen row is offered and shows the selected item, size and stock, and no later offered row shows them; whenever some offered row shows them a row is chosen; it raises exactly when the filter cannot be applied or `item_name` is missing, or `size` is missing while the item is offered; there is no stock data exactly when `quantity` is missing |
| Ledger.Distribute | app.py:340-363 | a refusal changes nothing; too little stock is refused, before any write; only `inventory` and `logs` can change; an accepted request appends exactly one `logs` row whose quantity is the requested one |
| Ledger.Decrement | app.py:354-361 | refused exactly when the current stock is below the request, and then nothing changes; with enough stock but no `id` column it aborts before any write |
| Ledger.InventoryView | app.py:373-378 | the inventory table shows exactly the rows with positive stock, in the category, whose item name contains the search text; it raises exactly when a shown column is missing, the stock filter cannot be applied, a search meets an item-name column that reads wholly as integers, or a search meets an offered row whose item name is not text |
| Ledger.Searched | app.py:377-378 | the search keeps exactly the offered rows whose item name contains the search text |
| Ledger.IntegerNamesBreakSearch | app.py:377-378 | a one-line table whose only item name reads as an integer and has no stock still raises on a search |
| Ledger.EditItem | app.py:398-400 | the edit save fails only on a missing worksheet and touches no other worksheet |
| LedgerProofs.InboundMergesIntoFirstMatch | app.py:283-290 | when a line has the key, the first such line's quantity grows by the event's quantity, its picture is replaced only when one was supplied, no line is added and nothing else changes |
| LedgerProofs.InboundAbortsOnUnreadableQuantity | app.py:288-289 | a matching line whose quantity `int()` cannot read aborts before any write |
| LedgerProofs.InboundAppendsNewLine | app.py:292-293 | with no line holding the key, exactly one line is appended with the next ID, the event's key and quantity, and the layout is kept |
| LedgerProofs.InboundKeepsStockNonNegative | app.py:279-295 | either inbound, as written or corrected, whichever path it takes, keeps stock non-negative and adds at most one line |
| LedgerProofs.InboundAddsStock | app.py:279-295 | the corrected inbound, which compares sizes in read form, keeps stock non-negative and keys unique; the key's stock grows by the event's quantity and no other key's stock moves; a line is added exactly when the key was new |
| LedgerProofs.RepeatedInboundMerges | app.py:283-293 | under the corrected inbound, the same inbound twice leaves one line for the key holding both quantities |
| LedgerProofs.AsWrittenInboundDuplicatesKey | app.py:284 | as written, an integer-looking size never matches, so a key already held is appended a second time and keys stop being unique |
| LedgerProofs.ShoeSizeInboundDuplicates | app.py:273-295 | 3 pairs of shoe size 250 onto a line of 5: as written a duplicate line appears; corrected, the line holds 8 |
| LedgerProofs.ChosenRow | app.py:341-354 | the chosen row has positive stock, the filtered category, and the requested item and size |
| LedgerProofs.DistributeChosen | app.py:353-356 | once a row is chosen, distribution is the guarded decrement of that row |
| LedgerProofs.DecrementLine | app.py:355-361 | with too little stock nothing changes; otherwise exactly the line's quantity becomes current minus the request, and `logs` gets one row (date, target type, target, item, size, quantity) |
| LedgerProofs.ChooseFindsLastShowing | app.py:341-354 | on a well-formed inventory, the row chosen is the last data line with stock in the category showing the selected item, size and stock |
| LedgerProofs.DistributeServesLastShowing | app.py:341-361 | when that last showing line holds enough stock, the request is accepted, exactly that line's quantity drops by the request, and `logs` gets the one hand-out row |
| LedgerProofs.DistributeWithoutChoice | app.py:345-363 | a request that resolves to no row changes nothing and is not accepted |
| LedgerProofs.DistributeTakesStock | app.py:351-361 | distribution keeps stock non-negative and keys unique; a refusal leaves `inventory` as it was; an accepted request takes its quantity from the chosen line's key alone |
| LedgerProofs.DecrementKeepsNonNegative | app.py:354-357 | the guarded decrement of a line keeps every line's stock non-negative, whether or not keys are unique |
| LedgerProofs.DistributeKeepsNonNegative | app.py:340-361 | distribution keeps stock non-negative for any request, also on an inventory with duplicate keys such as the page as written produces |
| LedgerProofs.EditOverwritesNameAndQuantity | app.py:394-400 | the edit overwrites exactly the line's name and quantity, with no guard, so a negative quantity breaks non-negativity |
| LedgerProofs.EditMissingIdNoChange | app.py:398-400 | an edit of an ID no line holds changes nothing |

## Left out

- The Streamlit UI: page routing, CSS, the person card and the dialog widgets. These are presentation only.
- The connection: `init_connection`, OAuth and the config writer are I/O. With no backend (`sh` is `None`) every helper does nothing; the model always has a backend.
- Image handling (`image_to_base64`): a picture is an opaque string, empty when none was supplied or it could not be read.
- The form inputs: the date and widget values are parameters of `InboundEvent` and `Request`.
- Widget bounds: `number_input` enforces `qty >= 1`; the lemmas that need it require it.
- The roster, staff and memo pages: they are plain calls of the same helpers.
- Floats, thousands commas, surrounding whitespace, underscores and non-ASCII digits in `int()` and in gspread's numericise: only ASCII digits with an optional leading `+` or `-` read as integers.
- `str.contains` treats the search text as a regular expression; the model treats it as a literal substring (`Ledger.Contains`).
- `USER_ENTERED` versus raw writes: every write is modelled as read back through `Normalize`.
- Duplicate header names and `append_row`'s table detection: the header names are distinct and `append_row` adds after the last row.
- Two size-menu entries with the same label: only the last row is reachable, as modelled; the hidden rows are not described further.
- Concurrent operators: the read-then-write race between two sessions is out of scope; the model is sequential.
- The edit selector's `int(edit_item.split(":")[0])` and `df[df['id'] == sel_id].iloc[0]`: the edit is modelled from the ID it yields.
- Sheets.NextId: its own contract only bounds the ID below; each branch is stated by Ids.NextIdFromLastCell and Ids.NextIdOfBlankColumn, the last-plus-one rule on ascending IDs by Ids.NextIdIsFresh, and the reuse after deleting the bottom row, on IDs 1, 2, 3, by Ids.DeletedLastIdIsReused.
- Ledger.Distribute: the refusal `InsufficientStock(available)` carries the stock found, which only the model keeps; the page shows a plain out-of-stock message.
- LedgerProofs.EditOverwritesNameAndQuantity: non-negativity is not kept under manual edit, as the page allows any integer.
- The table view's own `KeyError`s, such as a missing `id` or `size` column in `view_cols`, are folded into `Ledger.InventoryView` returning `None`.

## Findings

| source | as written | input that shows it | evidently intended | confidence | as-written member | corrected member |
|---|---|---|---|---|---|---|
| app.py:284 | inbound compares the raw form text (`"250"`) with cells that `get_all_records` has turned into integers (`250`), so a shoe size never matches its line | a line (운동화, 250, 신발) with 5 pairs, then an inbound of 3 pairs of size "250" | merge into the existing line, bringing it to 8 pairs, and keep one line per key | medium, not executed; it depends on gspread's default numericise of the size column | LedgerProofs.AsWrittenInboundDuplicatesKey | LedgerProofs.InboundAddsStock |

=== FILE: cells.dfy ===
/** Spreadsheet cells as the ledger sees them.

    A cell is read through gspread's `get_all_records`, which turns every
    integer-looking text into an `int` and leaves the rest as `str`; that is
    `Value`. The worksheet's own formatted text of a cell, which
    `col_values`, `row_values` and `find` work on, is `Text`. */
module Cells {
  import opened Decimal

  datatype Value = Int(i: int) | Str(s: string)

  type Row = seq<Value>

  /** The text the spreadsheet shows for a cell (`str(v)` in Python). */
  function Text(v: Value): (t: string) {
    match v
    case Int(i) => IntText(i)
    case Str(s) => s
  }

  /** A value as a read hands it back: no integer-looking `Str`. */
  predicate Normal(v: Value) {
    v.Str? ==> !IsIntText(v.s)
  }

  /** Writing a value and reading it back: integer-looking text becomes
      an integer, everything else is kept. */
  function Normalize(v: Value): (r: Value)
    ensures Normal(r)
    ensures Normal(v) ==> r == v
    ensures Text(r) == Text(v) || (v.Str? && IsIntText(v.s) && r == Int(IntValue(v.s)))
  {
    match v
    case Int(_) => v
    case Str(s) => if IsIntText(s) then Int(IntValue(s)) else v
  }

  function NormalizeRow(row: Row): (r: Row)
    ensures |r| == |row|
    ensures forall k :: 0 <= k < |row| ==> r[k] == Normalize(row[k])
  {
    seq(|row|, k requires 0 <= k < |row| => Normalize(row[k]))
  }

  /** Two values a read can produce show the same text only if they are equal. */
  lemma TextInjective(a: Value, b: Value)
    requires Normal(a) && Normal(b)
    ensures Text(a) == Text(b) <==> a == b
  {
    match (a, b)
    case (Int(x), Int(y)) => IntTextInjective(x, y);
    case (Int(x), Str(t)) =>
    case (Str(t), Int(y)) =>
    case (Str(_), Str(_)) =>
  }

  const Blank: Value := Str("")

  /** The value in column `j` of a row; cells past the end of a short row
      read as blank, as `get_all_records` pads them. */
  function Cell(row: Row, j: nat): (v: Value) {
    if j < |row| then row[j] else Blank
  }

  function Blanks(n: nat): (r: Row)
    ensures |r| == n
    ensures forall k :: 0 <= k < n ==> r[k] == Blank
  {
    seq(n, _ => Blank)
  }

  /** `update_cell` on one row: column `j` becomes `v`, a short row grows
      with blank cells, every other column keeps its value. */
  function SetCell(row: Row, j: nat, v: Value): (r: Row)
    ensures |r| == if j < |row| then |row| else j + 1
    ensures Cell(r, j) == v
    ensures forall k :: k != j ==> Cell(r, k) == Cell(row, k)
    ensures forall k :: 0 <= k < |row| && k != j ==> r[k] == row[k]
  {
    if j < |row| then row[j := v] else row + Blanks(j - |row|) + [v]
  }
}

=== FILE: decimal.dfy ===
/** Decimal text of integers, as the spreadsheet shows a number cell and as
    Python's `str.isdigit` and `int` read it back (ASCII digits only). */
module Decimal {

  predicate IsDigit(c: char) {
    '0' <= c <= '9'
  }

  /** `s.isdigit()`: non-empty and every character a digit. */
  predicate IsDigits(s: string) {
    |s| > 0 && forall i :: 0 <= i < |s| ==> IsDigit(s[i])
  }

  /** Text that `int(s)` accepts: digits with an optional leading sign. */
  predicate IsIntText(s: string) {
    IsDigits(s) || (|s| >= 2 && (s[0] == '-' || s[0] == '+') && IsDigits(s[1..]))
  }

  function DigitChar(d: nat): (c: char)
    requires d < 10
    ensures IsDigit(c)
    ensures c as int - '0' as int == d
  {
    ('0' as int + d) as char
  }

  function DigitValue(c: char): (d: nat)
    requires IsDigit(c)
    ensures d < 10
  {
    c as int - '0' as int
  }

  /** The number a run of digits denotes; leading zeros are allowed. */
  function DigitsValue(s: string): (n: nat)
    requires forall i :: 0 <= i < |s| ==> IsDigit(s[i])
  {
    if |s| == 0 then 0
    else 10 * DigitsValue(s[..|s| - 1]) + DigitValue(s[|s| - 1])
  }

  /** `str(n)` for a non-negative integer. */
  function NatText(n: nat): (s: string)
    ensures IsDigits(s)
    ensures n >= 10 ==> |s| >= 2
    decreases n
  {
    if n < 10 then [DigitChar(n)] else NatText(n / 10) + [DigitChar(n % 10)]
  }

  /** `int(s)` for text it accepts. */
  function IntValue(s: string): (n: int)
    requires IsIntText(s)
  {
    if IsDigits(s) then DigitsValue(s)
    else if s[0] == '-' then 0 - DigitsValue(s[1..]) as int
    else DigitsValue(s[1..])
  }

  /** `str(i)` for any integer. */
  function IntText(i: int): (s: string)
    ensures IsIntText(s)
    ensures IsDigits(s) <==> i >= 0
  {
    if i >= 0 then NatText(i)
    else
      var s := "-" + NatText(-i);
      assert !IsDigit(s[0]) && s[1..] == NatText(-i);
      s
  }

  /** Reading back the text of a natural number gives the number. */
  lemma {:induction false} NatTextRoundTrip(n: nat)
    ensures DigitsValue(NatText(n)) == n
    decreases n
  {
    if n >= 10 {
      var s := NatText(n);
      assert s[..|s| - 1] == NatText(n / 10);
      NatTextRoundTrip(n / 10);
    }
  }

  /** `int(str(i)) == i`. */
  lemma IntTextRoundTrip(i: int)
    ensures IntValue(IntText(i)) == i
  {
    if i >= 0 {
      NatTextRoundTrip(i);
    } else {
      var s := IntText(i);
      assert s[1..] == NatText(-i);
      NatTextRoundTrip(-i);
    }
  }

  /** A leading `+` reads as the bare digits and a leading `-` as their negation. */
  lemma SignedTextValue(d: string)
    requires IsDigits(d)
    ensures IsIntText("+" + d) && IntValue("+" + d) == IntValue(d)
    ensures IsIntText("-" + d) && IntValue("-" + d) == -IntValue(d)
  {
    assert ("+" + d)[1..] == d && ("-" + d)[1..] == d;
  }

  /** Different integers have different texts. */
  lemma IntTextInjective(a: int, b: int)
    ensures IntText(a) == IntText(b) <==> a == b
  {
    if IntText(a) == IntText(b) {
      IntTextRoundTrip(a);
      IntTextRoundTrip(b);
    }
  }
}

=== FILE: ids.dfy ===
/** How IDs behave under `add_data`, `update_data` and `delete_data`.

    Appending `last + 1` and deleting rows keep the IDs of a worksheet
    strictly ascending from top to bottom, so IDs stay unique and `find`
    locates exactly the row with the ID. They are not monotonic over time:
    deleting the bottom row lets its ID be handed out again. */
module Ids {
  import opened Decimal
  import opened Cells
  import opened Sheets

  /** Every data row has an integer ID, and IDs increase down the sheet. */
  predicate AscendingRows(rows: seq<Row>) {
    && (forall i :: 0 <= i < |rows| ==> |rows[i]| >= 1 && rows[i][0].Int?)
    && (forall i, j :: 0 <= i < j < |rows| ==> rows[i][0].i < rows[j][0].i)
  }

  /** A worksheet whose header row starts with the column `id` and whose
      data rows have strictly ascending integer IDs. */
  predicate IdsAscending(sh: Sheet) {
    |sh| >= 1 && |sh[0]| >= 1 && sh[0][0] == Str("id") && AscendingRows(sh[1..])
  }

  /** The header's `id` cell never shows the text of an integer, so `find`
      of an integer key never hits the header row. */
  lemma HeaderIsNoId(sh: Sheet, n: int)
    requires |sh| >= 1 && |sh[0]| >= 1 && sh[0][0] == Str("id")
    ensures IdText(sh[0]) != Text(Int(n))
  {
    var t := "id";
    assert !IsDigit(t[0]);
    assert !IsDigits(t);
    assert !IsIntText(t);
    assert IdText(sh[0]) == t;
    assert IsIntText(Text(Int(n)));
  }

  /** In a sheet with ascending IDs, `find` of an integer key locates the
      one row that has it, and fails exactly when no row has it. */
  lemma FindById(sh: Sheet, n: int)
    requires IdsAscending(sh)
    ensures Find(sh, Int(n)).Some? <==> exists i :: 1 <= i < |sh| && sh[i][0] == Int(n)
    ensures forall i :: 1 <= i < |sh| && sh[i][0] == Int(n) ==> Find(sh, Int(n)) == Some(i)
  {
    HeaderIsNoId(sh, n);
    var r := Find(sh, Int(n));
    if r.Some? {
      var k := r.value;
      assert k != 0;
      assert sh[k] == sh[1..][k - 1];
      IntTextInjective(sh[k][0].i, n);
      assert sh[k][0] == Int(n);
      forall i | 1 <= i < |sh| && sh[i][0] == Int(n)
        ensures i == k
      {
        assert IdText(sh[i]) == Text(Int(n));
        assert sh[i] == sh[1..][i - 1];
      }
    } else {
      forall i | 1 <= i < |sh|
        ensures sh[i][0] != Int(n)
      {
        assert IdText(sh[i]) != Text(Int(n));
      }
    }
  }

  /** The next ID is larger than every ID in an ascending sheet, so an
      appended row never repeats a live ID. */
  lemma NextIdIsFresh(sh: Sheet)
    requires IdsAscending(sh)
    ensures forall i :: 1 <= i < |sh| ==> sh[i][0].i < NextId(sh)
    ensures |sh| >= 2 && sh[|sh| - 1][0].i >= 0 ==> NextId(sh) == sh[|sh| - 1][0].i + 1
  {
    if |sh| >= 2 {
      var last := |sh| - 1;
      assert sh[last] == sh[1..][last - 1];
      var m := sh[last][0].i;
      assert IdText(sh[last]) == IntText(m);
      assert LastFilled(sh, |sh|) == Some(last);
      if m >= 0 {
        NatTextRoundTrip(m);
        assert NextId(sh) == m + 1;
      } else {
        assert !IsDigits(IntText(m));
        assert NextId(sh) == 1;
      }
      forall i | 1 <= i < |sh|
        ensures sh[i][0].i < NextId(sh)
      {
        assert sh[i] == sh[1..][i - 1];
        if i < last {
          assert sh[i][0].i < m;
        }
      }
    }
  }

  /** Each `add_data` on a worksheet that has a header row moves the next
      ID on by exactly one: consecutive appends get consecutive IDs. */
  lemma AppendAdvancesNextId(sh: Sheet, fields: Row)
    requires |sh| >= 1
    ensures var sh' := Appended(sh, fields);
            sh'[|sh|][0] == Int(NextId(sh)) && NextId(sh') == NextId(sh) + 1
  {
    var id := NextId(sh);
    var sh' := Appended(sh, fields);
    var row := NormalizeRow([Int(id)] + fields);
    assert sh' == sh + [row];
    assert row[0] == Int(id);
    var last := |sh'| - 1;
    assert IdText(sh'[last]) == NatText(id);
    assert LastFilled(sh', |sh'|) == Some(last);
    NatTextRoundTrip(id);
  }

  /** `add_data` keeps the IDs ascending. */
  lemma AppendKeepsIdsAscending(sh: Sheet, fields: Row)
    requires IdsAscending(sh)
    ensures IdsAscending(Appended(sh, fields))
  {
    var sh' := Appended(sh, fields);
    AppendAdvancesNextId(sh, fields);
    NextIdIsFresh(sh);
    assert sh'[0] == sh[0];
    var rows': seq<Row> := sh'[1..];
    forall i | 0 <= i < |rows'|
      ensures |rows'[i]| >= 1 && rows'[i][0].Int?
      ensures i < |rows'| - 1 ==> rows'[i] == sh[i + 1]
    {
      assert rows'[i] == sh'[i + 1];
      if i < |rows'| - 1 {
        assert sh[1..][i] == sh[i + 1];
      }
    }
    forall i, j | 0 <= i < j < |rows'|
      ensures rows'[i][0].i < rows'[j][0].i
    {
      if j < |rows'| - 1 {
        assert sh[1..][i] == sh[i + 1] && sh[1..][j] == sh[j + 1];
      }
    }
  }

  /** `update_data` of a column other than `id` keeps the IDs ascending. */
  lemma UpdateKeepsIdsAscending(sh: Sheet, key: Value, col: string, v: Value)
    requires IdsAscending(sh) && col != "id"
    ensures IdsAscending(Updated(sh, key, col, v))
  {
    var sh' := Updated(sh, key, col, v);
    match Find(sh, key)
    case None =>
    case Some(i) =>
      match ColumnIndex(sh[0], col)
      case None =>
      case Some(j) =>
        assert j != 0;
        forall m | 0 <= m < |sh|
          ensures |sh'[m]| >= 1 && sh'[m][0] == sh[m][0]
        {
          if m == i {
            assert Cell(sh'[m], 0) == Cell(sh[m], 0);
          }
        }
        SameIds(sh, sh');
  }

  /** A sheet whose rows carry the same ID cells as one with ascending IDs
      has ascending IDs too. */
  lemma SameIds(sh: Sheet, sh': Sheet)
    requires IdsAscending(sh) && |sh'| == |sh|
    requires forall m :: 0 <= m < |sh| ==> |sh'[m]| >= 1 && sh'[m][0] == sh[m][0]
    ensures IdsAscending(sh')
  {
    forall m | 0 <= m < |sh| - 1
      ensures sh'[1..][m][0] == sh[1..][m][0]
    {
      assert sh'[1..][m] == sh'[m + 1];
      assert sh[1..][m] == sh[m + 1];
    }
  }

  /** On a sheet with ascending IDs, `update_data` by the ID a data row
      holds changes that row's cell in the column and nothing else. */
  lemma UpdateById(sh: Sheet, i: nat, col: string, j: nat, v: Value)
    requires IdsAscending(sh)
    requires 1 <= i < |sh| && col != "id" && ColumnIndex(sh[0], col) == Some(j)
    ensures var sh' := Updated(sh, sh[i][0], col, v);
            && |sh'| == |sh| && IdsAscending(sh') && sh'[0] == sh[0]
            && (forall m :: 0 <= m < |sh| && m != i ==> sh'[m] == sh[m])
            && Cell(sh'[i], j) == Normalize(v)
            && (forall k :: k != j ==> Cell(sh'[i], k) == Cell(sh[i], k))
  {
    assert sh[i] == sh[1..][i - 1];
    FindById(sh, sh[i][0].i);
    UpdateKeepsIdsAscending(sh, sh[i][0], col, v);
  }

  /** `update_data` by an ID no row holds changes nothing. */
  lemma UpdateMissingId(sh: Sheet, n: int, col: string, v: Value)
    requires IdsAscending(sh)
    requires forall m :: 1 <= m < |sh| ==> sh[m][0] != Int(n)
    ensures Updated(sh, Int(n), col, v) == sh
  {
    FindById(sh, n);
  }

  /** `delete_data` of an integer key on a sheet with ascending IDs
      removes exactly the rows with that ID (at most one). */
  lemma RemoveById(sh: Sheet, n: int)
    requires IdsAscending(sh)
    ensures Removed(sh, Int(n)) == [sh[0]] + Survivors(sh[1..], [Int(n)])
  {
    match Find(sh, Int(n))
    case None => MissingIdKeepsRows(sh, n);
    case Some(i) =>
      FoundIdIsDataRow(sh, n, i);
      FoundIdRemovesRow(sh, n, i);
  }

  lemma MissingIdKeepsRows(sh: Sheet, n: int)
    requires IdsAscending(sh) && Find(sh, Int(n)).None?
    ensures sh == [sh[0]] + Survivors(sh[1..], [Int(n)])
  {
    var rows := sh[1..];
    forall m | 0 <= m < |rows| ensures rows[m][0] != Int(n) {
      assert rows[m] == sh[m + 1];
      assert IdText(sh[m + 1]) != Text(Int(n));
    }
    AbsentIsSurvivors(rows, n);
    assert sh == [sh[0]] + rows;
  }

  lemma FoundIdRemovesRow(sh: Sheet, n: int, i: nat)
    requires IdsAscending(sh) && 1 <= i < |sh| && sh[1..][i - 1][0] == Int(n)
    ensures sh[..i] + sh[i + 1..] == [sh[0]] + Survivors(sh[1..], [Int(n)])
  {
    RemoveOneIsSurvivors(sh[1..], n, i - 1);
    ConsDrop(sh, i);
  }

  lemma FoundIdIsDataRow(sh: Sheet, n: int, i: nat)
    requires IdsAscending(sh) && Find(sh, Int(n)) == Some(i)
    ensures 1 <= i < |sh| && sh[1..][i - 1][0] == Int(n)
  {
    HeaderIsNoId(sh, n);
    assert i >= 1;
    assert sh[1..][i - 1] == sh[i];
    IntTextInjective(sh[i][0].i, n);
  }

  /** `delete_data` keeps the IDs ascending (an integer key never hits the
      header row). */
  lemma RemoveKeepsIdsAscending(sh: Sheet, n: int)
    requires IdsAscending(sh)
    ensures IdsAscending(Removed(sh, Int(n)))
  {
    RemoveById(sh, n);
    SurvivorsAscending(sh[1..], [Int(n)]);
    var s := Survivors(sh[1..], [Int(n)]);
    assert ([sh[0]] + s)[1..] == s;
  }

  /** The data rows whose ID is not among `keys`, in their order. */
  function Survivors(rows: seq<Row>, keys: seq<Value>): (r: seq<Row>)
    ensures |r| <= |rows|
    ensures forall x :: x in r ==> x in rows && Cell(x, 0) !in keys
  {
    if |rows| == 0 then []
    else (if Cell(rows[0], 0) in keys then [] else [rows[0]]) + Survivors(rows[1..], keys)
  }

  /** Dropping the first of a run of rows with ascending IDs leaves them
      ascending. */
  lemma AscendingTail(rows: seq<Row>)
    requires AscendingRows(rows) && |rows| > 0
    ensures AscendingRows(rows[1..])
  {
    var tail: seq<Row> := rows[1..];
    forall a, b | 0 <= a < b < |tail| ensures tail[a][0].i < tail[b][0].i {
      assert tail[a] == rows[a + 1] && tail[b] == rows[b + 1];
    }
  }

  lemma {:induction false} SurvivorsAscending(rows: seq<Row>, keys: seq<Value>)
    requires AscendingRows(rows)
    ensures AscendingRows(Survivors(rows, keys))
    decreases |rows|
  {
    if |rows| > 0 {
      var tail: seq<Row> := rows[1..];
      AscendingTail(rows);
      SurvivorsAscending(tail, keys);
      var s := Survivors(tail, keys);
      forall x: Row | x in s ensures rows[0][0].i < x[0].i {
        var k :| 0 <= k < |tail| && tail[k] == x;
        assert tail[k] == rows[k + 1];
      }
    }
  }

  /** Deleting the one row with ID `k` leaves the rows whose ID is not `k`. */
  lemma {:induction false} RemoveOneIsSurvivors(rows: seq<Row>, k: int, i: nat)
    requires AscendingRows(rows)
    requires i < |rows| && rows[i][0] == Int(k)
    ensures rows[..i] + rows[i + 1..] == Survivors(rows, [Int(k)])
    decreases |rows|
  {
    var tail: seq<Row> := rows[1..];
    AscendingTail(rows);
    if i == 0 {
      forall m | 0 <= m < |tail| ensures tail[m][0] != Int(k) {
        assert tail[m] == rows[m + 1];
      }
      AbsentIsSurvivors(tail, k);
      assert rows[..0] + rows[1..] == tail;
    } else {
      assert rows[0][0].i < k;
      RemoveOneIsSurvivors(tail, k, i - 1);
      ConsDrop(rows, i);
    }
  }

  /** Dropping element `i > 0` of a sequence is keeping its head and
      dropping element `i - 1` of its tail. */
  lemma ConsDrop<T>(xs: seq<T>, i: nat)
    requires 0 < i < |xs|
    ensures xs[..i] + xs[i + 1..] == [xs[0]] + (xs[1..][..i - 1] + xs[1..][i..])
  {
    assert xs[..i] == [xs[0]] + xs[1..][..i - 1];
    assert xs[i + 1..] == xs[1..][i..];
  }

  lemma {:induction false} AbsentIsSurvivors(rows: seq<Row>, k: int)
    requires AscendingRows(rows)
    requires forall m :: 0 <= m < |rows| ==> rows[m][0] != Int(k)
    ensures Survivors(rows, [Int(k)]) == rows
    decreases |rows|
  {
    if |rows| > 0 {
      var tail: seq<Row> := rows[1..];
      AscendingTail(rows);
      forall m | 0 <= m < |tail| ensures tail[m][0] != Int(k) {
        assert tail[m] == rows[m + 1];
      }
      AbsentIsSurvivors(tail, k);
    }
  }

  lemma {:induction false} SurvivorsCompose(rows: seq<Row>, a: seq<Value>, b: seq<Value>)
    ensures Survivors(Survivors(rows, a), b) == Survivors(rows, a + b)
    decreases |rows|
  {
    if |rows| > 0 {
      SurvivorsCompose(rows[1..], a, b);
      var x := rows[0];
      var tail := Survivors(rows[1..], a);
      if Cell(x, 0) in a {
        assert Cell(x, 0) in a + b;
        assert Survivors(rows, a) == tail;
        assert Survivors(rows, a + b) == Survivors(rows[1..], a + b);
      } else {
        var s := Survivors(rows, a);
        assert s == [x] + tail;
        assert s[1..] == tail;
        assert Cell(x, 0) in b <==> Cell(x, 0) in a + b;
      }
    }
  }

  /** The worksheet after `delete_data` once per key, in order. */
  function RemovedAll(sh: Sheet, keys: seq<Value>): (sh': Sheet)
    decreases |keys|
  {
    if |keys| == 0 then sh else RemovedAll(Removed(sh, keys[0]), keys[1..])
  }

  /** The delete loop on an existing worksheet is `RemovedAll` on it. */
  lemma {:induction false} DeleteManyIsRemovedAll(store: Store, name: string, keys: seq<Value>)
    requires name in store
    ensures DeleteMany(store, name, keys) == Ok(store[name := RemovedAll(store[name], keys)])
    decreases |keys|
  {
    if |keys| > 0 {
      var s1 := store[name := Removed(store[name], keys[0])];
      assert DeleteData(store, name, keys[0]) == Ok(s1);
      assert DeleteMany(store, name, keys) == DeleteMany(s1, name, keys[1..]);
      assert RemovedAll(store[name], keys) == RemovedAll(s1[name], keys[1..]);
      DeleteManyIsRemovedAll(s1, name, keys[1..]);
      assert s1[name := RemovedAll(s1[name], keys[1..])] == store[name := RemovedAll(store[name], keys)];
    } else {
      assert store[name := store[name]] == store;
    }
  }

  /** `RemovedAll` by integer IDs on a sheet with ascending IDs keeps the
      header and exactly the data rows whose ID is not among the keys. */
  lemma {:induction false} RemovedAllSurvivors(sh: Sheet, keys: seq<int>)
    requires IdsAscending(sh)
    ensures var sh' := RemovedAll(sh, IntKeys(keys));
            IdsAscending(sh') && sh' == [sh[0]] + Survivors(sh[1..], IntKeys(keys))
    decreases |keys|
  {
    var rows := sh[1..];
    if |keys| == 0 {
      AbsentSurvivorsEmpty(rows);
      assert sh == [sh[0]] + rows;
    } else {
      var k := keys[0];
      var sh1 := Removed(sh, Int(k));
      RemoveStep(sh, k);
      RemovedAllSurvivors(sh1, keys[1..]);
      IntKeysCons(keys);
      SurvivorsCompose(rows, [Int(k)], IntKeys(keys[1..]));
      calc {
        RemovedAll(sh, IntKeys(keys));
        RemovedAll(sh1, IntKeys(keys[1..]));
        [sh1[0]] + Survivors(sh1[1..], IntKeys(keys[1..]));
        [sh[0]] + Survivors(rows, IntKeys(keys));
      }
    }
  }

  /** One `delete_data` of the loop, on the worksheet. */
  lemma RemoveStep(sh: Sheet, k: int)
    requires IdsAscending(sh)
    ensures var sh' := Removed(sh, Int(k));
            IdsAscending(sh') && sh'[0] == sh[0] && sh'[1..] == Survivors(sh[1..], [Int(k)])
  {
    RemoveById(sh, k);
    RemoveKeepsIdsAscending(sh, k);
    var s := Survivors(sh[1..], [Int(k)]);
    assert ([sh[0]] + s)[1..] == s;
  }

  /** The confirmation dialog's delete loop over a sheet with ascending IDs
      removes exactly the rows whose ID was selected, keeps every other row
      in order, and keeps the IDs ascending. */
  lemma DeleteManyRemovesSelected(store: Store, name: string, keys: seq<int>)
    requires name in store && IdsAscending(store[name])
    ensures DeleteMany(store, name, IntKeys(keys)).Ok?
    ensures var sh' := DeleteMany(store, name, IntKeys(keys)).value[name];
            && IdsAscending(sh')
            && sh' == [store[name][0]] + Survivors(store[name][1..], IntKeys(keys))
  {
    DeleteManyIsRemovedAll(store, name, IntKeys(keys));
    RemovedAllSurvivors(store[name], keys);
  }

  lemma AbsentSurvivorsEmpty(rows: seq<Row>)
    ensures Survivors(rows, []) == rows
  {
  }

  lemma IntKeysCons(keys: seq<int>)
    requires |keys| > 0
    ensures IntKeys(keys) == [Int(keys[0])] + IntKeys(keys[1..])
    ensures IntKeys(keys)[0] == Int(keys[0]) && IntKeys(keys)[1..] == IntKeys(keys[1..])
  {
    assert IntKeys(keys)[1..] == IntKeys(keys[1..]);
  }

  function IntKeys(keys: seq<int>): (r: seq<Value>)
    ensures |r| == |keys|
    ensures forall i :: 0 <= i < |keys| ==> r[i] == Int(keys[i])
  {
    seq(|keys|, i requires 0 <= i < |keys| => Int(keys[i]))
  }

  /** The next ID read off the last non-empty first-column cell, row `k`,
      whatever the rows above hold: 1 when that cell is the header's; its
      value plus one when it holds a non-negative integer or all-digit
      text; 1 when it holds anything else (a negative number or text that
      is not all digits). */
  lemma NextIdFromLastCell(sh: Sheet, k: nat)
    requires k < |sh| && IdText(sh[k]) != ""
    requires forall j :: k < j < |sh| ==> IdText(sh[j]) == ""
    ensures k == 0 ==> NextId(sh) == 1
    ensures k >= 1 && Cell(sh[k], 0).Int? && Cell(sh[k], 0).i >= 0 ==> NextId(sh) == Cell(sh[k], 0).i + 1
    ensures k >= 1 && Cell(sh[k], 0).Int? && Cell(sh[k], 0).i < 0 ==> NextId(sh) == 1
    ensures k >= 1 && Cell(sh[k], 0).Str? && IsDigits(Cell(sh[k], 0).s) ==> NextId(sh) == DigitsValue(Cell(sh[k], 0).s) + 1
    ensures k >= 1 && Cell(sh[k], 0).Str? && !IsDigits(Cell(sh[k], 0).s) ==> NextId(sh) == 1
  {
    assert LastFilled(sh, |sh|) == Some(k);
    if Cell(sh[k], 0).Int? && Cell(sh[k], 0).i >= 0 {
      NatTextRoundTrip(Cell(sh[k], 0).i);
    }
  }

  /** With no non-empty first-column cell at all (no rows, or only blank
      IDs), the next ID is 1. */
  lemma NextIdOfBlankColumn(sh: Sheet)
    requires forall j :: 0 <= j < |sh| ==> IdText(sh[j]) == ""
    ensures NextId(sh) == 1
  {
    assert LastFilled(sh, |sh|).None?;
  }

  /** The next ID follows the last ID, not the largest: under IDs 5 and 2
      the next row gets 3, and under IDs 3 and 2 it gets 3, an ID a row
      already holds. */
  lemma NextIdFollowsLastNotLargest()
    ensures NextId([[Str("id")], [Int(5)], [Int(2)]]) == 3
    ensures NextId([[Str("id")], [Int(3)], [Int(2)]]) == 3
  {
    var a: Sheet := [[Str("id")], [Int(5)], [Int(2)]];
    var b: Sheet := [[Str("id")], [Int(3)], [Int(2)]];
    assert IdText(a[2]) == "2" && IdText(b[2]) == "2";
    NextIdFromLastCell(a, 2);
    NextIdFromLastCell(b, 2);
  }

  /** IDs are not monotonic over time: with IDs 1, 2, 3, deleting row 3 and
      adding a row hands out 3 again. */
  lemma DeletedLastIdIsReused()
    ensures var sh := [[Str("id")], [Int(1)], [Int(2)], [Int(3)]];
            var store := map["logs" := sh];
            && DeleteData(store, "logs", Int(3)).Ok?
            && var s1 := DeleteData(store, "logs", Int(3)).value;
            && s1["logs"] == sh[..3]
            && AddData(s1, "logs", []).Ok?
            && AddData(s1, "logs", []).value["logs"][3][0] == Int(3)
  {
    var sh: Sheet := [[Str("id")], [Int(1)], [Int(2)], [Int(3)]];
    var store := map["logs" := sh];
    assert IdsAscending(sh);
    FindById(sh, 3);
    var s1 := DeleteData(store, "logs", Int(3)).value;
    assert s1["logs"] == sh[..3];
    assert IdsAscending(sh[..3]) by {
      assert sh[..3][1..] == [[Int(1)], [Int(2)]];
    }
    NextIdIsFresh(sh[..3]);
    AppendAdvancesNextId(sh[..3], []);
  }
}

=== FILE: ledger.dfy ===
/** The inventory ledger: the confirm handlers of the inbound, distribution
    and inventory pages, written as transitions of the record store.

    Every handler reads the `inventory` worksheet through `get_data`, then
    writes with `update_data` and `add_data`. An exception part-way through
    (a missing column, a quantity `int()` cannot read, a missing worksheet)
    ends the handler; the writes made before it stay, so a `Run` carries the
    store as it is at that point. */
module Ledger {
  import opened Cells
  import opened Sheets

  const Inventory := "inventory"
  const InboundLogs := "inbound_logs"
  const DistributionLogs := "logs"

  /** The category filter value that shows every category. */
  const AllCategories := "전체보기"

  /** The inventory worksheet's columns, in the order inbound appends them. */
  const InventoryHeader: Row :=
    [Str("id"), Str("date"), Str("category"), Str("item_name"), Str("size"), Str("quantity"), Str("image_path")]

  /** The identity of a stock line for merging: (item name, size, category). */
  datatype Key = Key(itemName: Value, size: Value, category: Value)

  /** One press of the inbound confirm button. `image` is the encoded
      thumbnail, empty when no picture was uploaded or it could not be read. */
  datatype InboundEvent = InboundEvent(date: string, category: string, itemName: string, size: string, qty: int, image: string)

  datatype Reason = EmptyItemName | InsufficientStock(available: int) | NotOffered | NoStockData

  datatype Outcome = Accepted | Rejected(reason: Reason) | Aborted

  datatype Run = Run(store: Store, outcome: Outcome)

  // ------------------------------------------------------------------ inbound

  predicate HasKeyColumns(f: Frame) {
    HasColumn(f, "item_name") && HasColumn(f, "size") && HasColumn(f, "category")
  }

  predicate HasKey(f: Frame, row: Row, k: Key)
    requires HasKeyColumns(f)
  {
    Get(f, row, "item_name") == k.itemName && Get(f, row, "size") == k.size && Get(f, row, "category") == k.category
  }

  datatype Match = NoMatch | Matched(index: nat) | MissingColumn

  /** The inventory lookup of inbound: the first data row with the key. A
      table without `item_name` has nothing to match; one with `item_name`
      but without `size` or `category` raises. */
  function MatchKey(f: Frame, k: Key): (m: Match)
    ensures m.MissingColumn? <==> HasColumn(f, "item_name") && !HasKeyColumns(f)
    ensures m.Matched? ==> HasKeyColumns(f) && m.index < |f.rows| && HasKey(f, f.rows[m.index], k)
    ensures m.Matched? ==> forall i :: 0 <= i < m.index ==> !HasKey(f, f.rows[i], k)
    ensures m.NoMatch? && HasKeyColumns(f) ==> forall i :: 0 <= i < |f.rows| ==> !HasKey(f, f.rows[i], k)
  {
    if !HasColumn(f, "item_name") then NoMatch
    else if !HasKeyColumns(f) then MissingColumn
    else FirstWithKey(f, k, 0)
  }

  function FirstWithKey(f: Frame, k: Key, from: nat): (m: Match)
    requires HasKeyColumns(f) && from <= |f.rows|
    ensures !m.MissingColumn?
    ensures m.Matched? ==> from <= m.index < |f.rows| && HasKey(f, f.rows[m.index], k)
    ensures m.Matched? ==> forall i :: from <= i < m.index ==> !HasKey(f, f.rows[i], k)
    ensures m.NoMatch? ==> forall i :: from <= i < |f.rows| ==> !HasKey(f, f.rows[i], k)
    decreases |f.rows| - from
  {
    if from == |f.rows| then NoMatch
    else if HasKey(f, f.rows[from], k) then Matched(from)
    else FirstWithKey(f, k, from + 1)
  }

  /** The key inbound looks for. As written, the handler compares the raw
      form inputs; the corrected handler compares them as a read returns
      them, so an integer-looking size such as a shoe size matches. */
  function ProbeKey(ev: InboundEvent, normalized: bool): (k: Key) {
    if normalized then Key(Normalize(Str(ev.itemName)), Normalize(Str(ev.size)), Normalize(Str(ev.category)))
    else Key(Str(ev.itemName), Str(ev.size), Str(ev.category))
  }

  /** The fields of a new stock line, after its ID. */
  function StockFields(ev: InboundEvent): (row: Row) {
    [Str(ev.date), Str(ev.category), Str(ev.itemName), Str(ev.size), Int(ev.qty), Str(ev.image)]
  }

  /** The fields of an inbound journal row, after its ID: the raw event. */
  function InboundFields(ev: InboundEvent): (row: Row) {
    [Str(ev.date), Str(ev.category), Str(ev.itemName), Str(ev.size), Int(ev.qty)]
  }

  /** The last step of every accepted inbound: one journal row. */
  function LogInbound(store: Store, ev: InboundEvent): (run: Run)
    ensures run.outcome.Accepted? <==> InboundLogs in store
    ensures run.outcome.Accepted? || run.outcome.Aborted?
    ensures run.outcome.Aborted? ==> run.store == store
    ensures run.outcome.Accepted? ==>
              && run.store.Keys == store.Keys
              && (forall n :: n in store && n != InboundLogs ==> run.store[n] == store[n])
              && run.store[InboundLogs] == store[InboundLogs] + [NormalizeRow([Int(NextId(store[InboundLogs]))] + InboundFields(ev))]
  {
    match AddData(store, InboundLogs, InboundFields(ev))
    case NoSuchSheet(_) => Run(store, Aborted)
    case Ok(s) => Run(s, Accepted)
  }

  /** The inbound confirm handler. An empty item name is refused. Otherwise
      the first stock line with the event's key gets the event's quantity
      added (and its picture replaced when one was supplied); with no such
      line a new one is appended. Either way one journal row records the raw
      event. */
  function InboundWith(store: Store, ev: InboundEvent, normalized: bool): (run: Run)
    ensures run.outcome == Rejected(EmptyItemName) <==> ev.itemName == ""
    ensures run.outcome.Rejected? ==> run.store == store
    ensures run.store.Keys == store.Keys
    ensures forall n :: n in store && n != Inventory && n != InboundLogs ==> run.store[n] == store[n]
    ensures run.outcome.Accepted? ==>
              && InboundLogs in store
              && run.store[InboundLogs] == store[InboundLogs] + [NormalizeRow([Int(NextId(store[InboundLogs]))] + InboundFields(ev))]
              && Cell(run.store[InboundLogs][|store[InboundLogs]|], 5) == Int(ev.qty)
    ensures ev.itemName != "" && MatchKey(GetData(store, Inventory), ProbeKey(ev, normalized)).MissingColumn? ==>
              run == Run(store, Aborted)
    ensures var f, m := GetData(store, Inventory), MatchKey(GetData(store, Inventory), ProbeKey(ev, normalized));
            ev.itemName != "" && m.Matched? ==>
              && (!HasColumn(f, "id") || !HasColumn(f, "quantity") ==> run == Run(store, Aborted))
              && (HasColumn(f, "quantity") && !Get(f, f.rows[m.index], "quantity").Int? ==> run == Run(store, Aborted))
  {
    if ev.itemName == "" then Run(store, Rejected(EmptyItemName))
    else
      var f := GetData(store, Inventory);
      match MatchKey(f, ProbeKey(ev, normalized))
      case MissingColumn => Run(store, Aborted)
      case NoMatch => CreateStock(store, ev)
      case Matched(m) =>
        var row := f.rows[m];
        if !HasColumn(f, "id") || !HasColumn(f, "quantity") || !Get(f, row, "quantity").Int? then Run(store, Aborted)
        else MergeStock(store, ev, Get(f, row, "id"), Get(f, row, "quantity").i)
  }

  /** Inbound without a matching stock line: a new line, then the journal. */
  function CreateStock(store: Store, ev: InboundEvent): (run: Run)
    ensures run.store.Keys == store.Keys
    ensures forall n :: n in store && n != Inventory && n != InboundLogs ==> run.store[n] == store[n]
    ensures !run.outcome.Rejected?
    ensures run.outcome.Accepted? ==>
              && InboundLogs in store
              && run.store[InboundLogs] == store[InboundLogs] + [NormalizeRow([Int(NextId(store[InboundLogs]))] + InboundFields(ev))]
  {
    match AddData(store, Inventory, StockFields(ev))
    case NoSuchSheet(_) => Run(store, Aborted)
    case Ok(s1) => LogInbound(s1, ev)
  }

  /** Inbound onto the stock line with ID `id` that holds `q`: the quantity
      becomes `q` plus the event's, the picture is replaced when one was
      supplied, then the journal. */
  function MergeStock(store: Store, ev: InboundEvent, id: Value, q: int): (run: Run)
    ensures run.store.Keys == store.Keys
    ensures forall n :: n in store && n != Inventory && n != InboundLogs ==> run.store[n] == store[n]
    ensures !run.outcome.Rejected?
    ensures run.outcome.Accepted? ==>
              && InboundLogs in store
              && run.store[InboundLogs] == store[InboundLogs] + [NormalizeRow([Int(NextId(store[InboundLogs]))] + InboundFields(ev))]
  {
    match UpdateData(store, Inventory, id, "quantity", Int(q + ev.qty))
    case NoSuchSheet(_) => Run(store, Aborted)
    case Ok(s1) =>
      if ev.image == "" then LogInbound(s1, ev)
      else
        match UpdateData(s1, Inventory, id, "image_path", Str(ev.image))
        case NoSuchSheet(_) => Run(s1, Aborted)
        case Ok(s2) => LogInbound(s2, ev)
  }

  /** Inbound exactly as the page is written: raw form inputs are compared.
      With no stored line holding the raw key, a new line is started. */
  function InboundAsWritten(store: Store, ev: InboundEvent): (run: Run)
    ensures var f := GetData(store, Inventory);
            ev.itemName != "" && HasKeyColumns(f)
            && (forall i :: 0 <= i < |f.rows| ==> !HasKey(f, f.rows[i], Key(Str(ev.itemName), Str(ev.size), Str(ev.category))))
            ==> run == CreateStock(store, ev)
    ensures var f := GetData(store, Inventory);
            var m := MatchKey(f, Key(Str(ev.itemName), Str(ev.size), Str(ev.category)));
            ev.itemName != "" && m.Matched? && HasColumn(f, "id") && HasColumn(f, "quantity")
            && Get(f, f.rows[m.index], "quantity").Int?
            ==> run == MergeStock(store, ev, Get(f, f.rows[m.index], "id"), Get(f, f.rows[m.index], "quantity").i)
  {
    InboundWith(store, ev, false)
  }

  /** Inbound with the key comparison corrected; the rest of the model uses
      this one. */
  function Inbound(store: Store, ev: InboundEvent): (run: Run)
    ensures var f := GetData(store, Inventory);
            ev.itemName != "" && HasKeyColumns(f)
            && (forall i :: 0 <= i < |f.rows| ==> !HasKey(f, f.rows[i], Key(Normalize(Str(ev.itemName)), Normalize(Str(ev.size)), Normalize(Str(ev.category)))))
            ==> run == CreateStock(store, ev)
    ensures var f := GetData(store, Inventory);
            var m := MatchKey(f, Key(Normalize(Str(ev.itemName)), Normalize(Str(ev.size)), Normalize(Str(ev.category))));
            ev.itemName != "" && m.Matched? && HasColumn(f, "id") && HasColumn(f, "quantity")
            && Get(f, f.rows[m.index], "quantity").Int?
            ==> run == MergeStock(store, ev, Get(f, f.rows[m.index], "id"), Get(f, f.rows[m.index], "quantity").i)
  {
    InboundWith(store, ev, true)
  }

  // ------------------------------------------------------------- distribution

  /** The filters of the distribution page can be evaluated: `quantity`
      holds integers only, and `category` exists whenever it is filtered on. */
  predicate Filterable(f: Frame, filter: string) {
    && HasColumn(f, "quantity")
    && (forall i :: 0 <= i < |f.rows| ==> Get(f, f.rows[i], "quantity").Int?)
    && (filter != AllCategories ==> HasColumn(f, "category"))
  }

  /** A row the distribution page offers: positive stock, and the chosen
      category unless the filter shows every category. */
  predicate Offerable(f: Frame, row: Row, filter: string)
    requires ColumnIndex(f.header, "quantity").Some?
    requires filter != AllCategories ==> ColumnIndex(f.header, "category").Some?
  {
    && Get(f, row, "quantity").Int? && Get(f, row, "quantity").i > 0
    && (filter != AllCategories ==> Get(f, row, "category") == Str(filter))
  }

  /** `inv_df[inv_df['quantity'] > 0]`, then the category filter, as the
      indices of the offered data rows in order. Comparing a text quantity
      with 0 raises, and so does filtering on a missing `category`. */
  function Offered(f: Frame, filter: string): (r: Option<seq<nat>>)
    requires HasColumn(f, "quantity")
    ensures r.None? <==> (exists i :: 0 <= i < |f.rows| && !Get(f, f.rows[i], "quantity").Int?)
                         || (filter != AllCategories && !HasColumn(f, "category"))
    ensures r.Some? ==> forall k: nat :: k in r.value <==> k < |f.rows| && Offerable(f, f.rows[k], filter)
    ensures r.Some? ==> forall p :: 0 <= p < |r.value| ==> r.value[p] < |f.rows|
    ensures r.Some? ==> forall p, q :: 0 <= p < q < |r.value| ==> r.value[p] < r.value[q]
  {
    if exists i :: 0 <= i < |f.rows| && !Get(f, f.rows[i], "quantity").Int? then None
    else if filter != AllCategories && !HasColumn(f, "category") then None
    else Some(OfferedFrom(f, filter, 0))
  }

  function OfferedFrom(f: Frame, filter: string, from: nat): (r: seq<nat>)
    requires ColumnIndex(f.header, "quantity").Some?
    requires filter != AllCategories ==> ColumnIndex(f.header, "category").Some?
    requires from <= |f.rows|
    ensures forall k :: k in r <==> from <= k < |f.rows| && Offerable(f, f.rows[k], filter)
    ensures forall p :: 0 <= p < |r| ==> r[p] < |f.rows|
    ensures forall p :: 0 <= p < |r| ==> from <= r[p]
    ensures forall p, q :: 0 <= p < q < |r| ==> r[p] < r[q]
    decreases |f.rows| - from
  {
    if from == |f.rows| then []
    else
      var rest := OfferedFrom(f, filter, from + 1);
      if Offerable(f, f.rows[from], filter) then [from] + rest else rest
  }

  /** Every offered row has a position in the offered list. */
  lemma OfferedPositions(f: Frame, filter: string, offered: seq<nat>)
    requires HasColumn(f, "quantity") && Offered(f, filter) == Some(offered)
    ensures forall k :: 0 <= k < |f.rows| && Offerable(f, f.rows[k], filter) ==>
              exists q :: 0 <= q < |offered| && offered[q] == k
  {
    forall k | 0 <= k < |f.rows| && Offerable(f, f.rows[k], filter)
      ensures exists q :: 0 <= q < |offered| && offered[q] == k
    {
      assert k in offered;
    }
  }

  /** The offered list is in row order, so no offered row after the one at
      position `p` shows the entry when no later position does. */
  lemma LaterRowsShowNot(f: Frame, filter: string, offered: seq<nat>, item: Value, opt: SizeOption, p: nat)
    requires HasColumn(f, "quantity") && Offered(f, filter) == Some(offered)
    requires HasColumn(f, "item_name") && HasColumn(f, "size") && p < |offered|
    requires forall q :: p < q < |offered| ==> !ShowsOption(f, f.rows[offered[q]], item, opt)
    ensures forall k :: offered[p] < k < |f.rows| && Offerable(f, f.rows[k], filter) ==>
              !ShowsOption(f, f.rows[k], item, opt)
  {
    OfferedPositions(f, filter, offered);
    forall k | offered[p] < k < |f.rows| && Offerable(f, f.rows[k], filter)
      ensures !ShowsOption(f, f.rows[k], item, opt)
    {
      var q :| 0 <= q < |offered| && offered[q] == k;
      assert p < q;
    }
  }

  /** Some offered row carries the item exactly when some position of the
      offered list does. */
  lemma OfferedItem(f: Frame, filter: string, offered: seq<nat>, item: Value)
    requires HasColumn(f, "quantity") && Offered(f, filter) == Some(offered)
    requires HasColumn(f, "item_name")
    ensures (exists q :: 0 <= q < |offered| && Get(f, f.rows[offered[q]], "item_name") == item) <==>
            (exists k :: 0 <= k < |f.rows| && Offerable(f, f.rows[k], filter) && Get(f, f.rows[k], "item_name") == item)
  {
    OfferedPositions(f, filter, offered);
    if exists q :: 0 <= q < |offered| && Get(f, f.rows[offered[q]], "item_name") == item {
      var q :| 0 <= q < |offered| && Get(f, f.rows[offered[q]], "item_name") == item;
      assert offered[q] in offered;
    }
  }

  /** When some offered row shows the entry, the search for the last showing
      position finds one. */
  lemma OfferedShowing(f: Frame, filter: string, offered: seq<nat>, item: Value, opt: SizeOption)
    requires HasColumn(f, "quantity") && Offered(f, filter) == Some(offered)
    requires HasColumn(f, "item_name") && HasColumn(f, "size")
    ensures (exists k :: 0 <= k < |f.rows| && Offerable(f, f.rows[k], filter) && ShowsOption(f, f.rows[k], item, opt))
            ==> LastShowing(f, offered, item, opt, |offered|).Some?
  {
    OfferedPositions(f, filter, offered);
  }

  /** An entry of the size menu: the size and the stock it shows. */
  datatype SizeOption = SizeOption(size: Value, stock: Value)

  /** One press of the distribution confirm button: who receives, under
      which category filter, which item and size entry, how many. */
  datatype Request = Request(date: string, targetType: string, targetName: Value, filter: string,
                             item: Value, option: SizeOption, qty: int)

  predicate ShowsOption(f: Frame, row: Row, item: Value, opt: SizeOption)
    requires ColumnIndex(f.header, "item_name").Some? && ColumnIndex(f.header, "size").Some?
    requires ColumnIndex(f.header, "quantity").Some?
  {
    Get(f, row, "item_name") == item && Get(f, row, "size") == opt.size && Get(f, row, "quantity") == opt.stock
  }

  /** The size menu is a dict keyed by its label, so among offered rows that
      show the same entry the last one wins: the position of that row. */
  function LastShowing(f: Frame, offered: seq<nat>, item: Value, opt: SizeOption, upto: nat): (p: Option<nat>)
    requires ColumnIndex(f.header, "item_name").Some? && ColumnIndex(f.header, "size").Some?
    requires ColumnIndex(f.header, "quantity").Some?
    requires forall q :: 0 <= q < |offered| ==> offered[q] < |f.rows|
    requires upto <= |offered|
    ensures p.Some? ==> p.value < upto && ShowsOption(f, f.rows[offered[p.value]], item, opt)
    ensures p.Some? ==> forall q :: p.value < q < upto ==> !ShowsOption(f, f.rows[offered[q]], item, opt)
    ensures p.None? ==> forall q :: 0 <= q < upto ==> !ShowsOption(f, f.rows[offered[q]], item, opt)
  {
    if upto == 0 then None
    else if ShowsOption(f, f.rows[offered[upto - 1]], item, opt) then Some(upto - 1)
    else LastShowing(f, offered, item, opt, upto - 1)
  }

  datatype Choice = NoData | Crash | Unavailable | Chosen(index: nat)

  /** What the distribution page resolves a request to: the data row it
      would decrement, or why there is none. The chosen row is offered and
      shows the requested entry, and it is the last offered row that does;
      whenever some offered row shows the entry, one is chosen. */
  function Choose(f: Frame, req: Request): (c: Choice)
    ensures c.Chosen? ==>
              && c.index < |f.rows|
              && HasColumn(f, "quantity") && HasColumn(f, "item_name") && HasColumn(f, "size")
              && (req.filter != AllCategories ==> HasColumn(f, "category"))
              && Offerable(f, f.rows[c.index], req.filter)
              && ShowsOption(f, f.rows[c.index], req.item, req.option)
              && (forall k :: c.index < k < |f.rows| && Offerable(f, f.rows[k], req.filter) ==>
                    !ShowsOption(f, f.rows[k], req.item, req.option))
    ensures c.NoData? <==> !HasColumn(f, "quantity")
    ensures c.Crash? <==>
              && HasColumn(f, "quantity")
              && (|| !Filterable(f, req.filter)
                  || !HasColumn(f, "item_name")
                  || (&& !HasColumn(f, "size")
                      && exists k :: 0 <= k < |f.rows| && Offerable(f, f.rows[k], req.filter)
                                     && Get(f, f.rows[k], "item_name") == req.item))
    ensures Filterable(f, req.filter) && HasColumn(f, "item_name") && HasColumn(f, "size")
            && (exists k :: 0 <= k < |f.rows| && Offerable(f, f.rows[k], req.filter)
                            && ShowsOption(f, f.rows[k], req.item, req.option))
            ==> c.Chosen?
  {
    if !HasColumn(f, "quantity") then NoData
    else match Offered(f, req.filter)
      case None => Crash
      case Some(offered) =>
        if !HasColumn(f, "item_name") then Crash
        else
          OfferedItem(f, req.filter, offered, req.item);
          if !exists q :: 0 <= q < |offered| && Get(f, f.rows[offered[q]], "item_name") == req.item then Unavailable
          else if !HasColumn(f, "size") then Crash
          else
            OfferedShowing(f, req.filter, offered, req.item, req.option);
            match LastShowing(f, offered, req.item, req.option, |offered|)
            case None => Unavailable
            case Some(p) =>
              LaterRowsShowNot(f, req.filter, offered, req.item, req.option, p);
              Chosen(offered[p])
  }

  /** The fields of a distribution journal row, after its ID. */
  function DistributionFields(f: Frame, row: Row, req: Request): (logRow: Row)
    requires ColumnIndex(f.header, "size").Some?
  {
    [Str(req.date), Str(req.targetType), req.targetName, req.item, Get(f, row, "size"), Int(req.qty)]
  }

  /** The distribution confirm handler: with enough stock on the chosen row
      its quantity drops by the request and one journal row is appended;
      with too little nothing changes. */
  function Distribute(store: Store, req: Request): (run: Run)
    ensures run.outcome.Rejected? ==> run.store == store
    ensures run.outcome == Rejected(NoStockData) <==> !HasColumn(GetData(store, Inventory), "quantity")
    ensures run.outcome.Rejected? && run.outcome.reason.InsufficientStock? ==>
              run.outcome.reason.available < req.qty
    ensures run.store.Keys == store.Keys
    ensures forall n :: n in store && n != Inventory && n != DistributionLogs ==> run.store[n] == store[n]
    ensures run.outcome.Accepted? ==>
              && DistributionLogs in store
              && |run.store[DistributionLogs]| == |store[DistributionLogs]| + 1
              && run.store[DistributionLogs][..|store[DistributionLogs]|] == store[DistributionLogs]
              && Cell(run.store[DistributionLogs][|store[DistributionLogs]|], 6) == Int(req.qty)
  {
    var f := GetData(store, Inventory);
    match Choose(f, req)
    case NoData => Run(store, Rejected(NoStockData))
    case Crash => Run(store, Aborted)
    case Unavailable => Run(store, Rejected(NotOffered))
    case Chosen(k) => Decrement(store, f, f.rows[k], req)
  }

  /** The guarded decrement on the chosen row `row` of the table `f`. */
  function Decrement(store: Store, f: Frame, row: Row, req: Request): (run: Run)
    requires HasColumn(f, "quantity") && HasColumn(f, "size") && Get(f, row, "quantity").Int?
    ensures run.outcome.Rejected? ==> run.store == store
    ensures run.outcome.Rejected? ==> run.outcome.reason == InsufficientStock(Get(f, row, "quantity").i)
    ensures run.outcome.Rejected? <==> Get(f, row, "quantity").i < req.qty
    ensures !HasColumn(f, "id") && Get(f, row, "quantity").i >= req.qty ==> run == Run(store, Aborted)
    ensures run.store.Keys == store.Keys
    ensures forall n :: n in store && n != Inventory && n != DistributionLogs ==> run.store[n] == store[n]
    ensures run.outcome.Accepted? ==>
              && DistributionLogs in store
              && |run.store[DistributionLogs]| == |store[DistributionLogs]| + 1
              && run.store[DistributionLogs][..|store[DistributionLogs]|] == store[DistributionLogs]
              && Cell(run.store[DistributionLogs][|store[DistributionLogs]|], 6) == Int(req.qty)
  {
    var current := Get(f, row, "quantity").i;
    if current < req.qty then Run(store, Rejected(InsufficientStock(current)))
    else if !HasColumn(f, "id") then Run(store, Aborted)
    else
      match UpdateData(store, Inventory, Get(f, row, "id"), "quantity", Int(current - req.qty))
      case NoSuchSheet(_) => Run(store, Aborted)
      case Ok(s1) =>
        match AddData(s1, DistributionLogs, DistributionFields(f, row, req))
        case NoSuchSheet(_) => Run(s1, Aborted)
        case Ok(s2) => Run(s2, Accepted)
  }

  // ----------------------------------------------------------- inventory page

  predicate OccursAt(s: string, part: string, i: nat) {
    i + |part| <= |s| && s[i..i + |part|] == part
  }

  /** `part in s` for text: the search box matches a substring. */
  predicate Contains(s: string, part: string) {
    exists i: nat | i <= |s| :: OccursAt(s, part, i)
  }

  predicate InView(f: Frame, row: Row, category: string, search: string)
    requires HasColumn(f, "quantity") && HasColumn(f, "category") && HasColumn(f, "item_name")
  {
    Offerable(f, row, category)
    && (search != "" ==> Get(f, row, "item_name").Str? && Contains(Get(f, row, "item_name").s, search))
  }

  /** Every cell of the column reads as an integer, so the table column has
      an integer type and its text methods raise, whichever rows are kept. */
  predicate AllIntegers(f: Frame, col: string)
    requires HasColumn(f, col)
  {
    forall k :: 0 <= k < |f.rows| ==> Get(f, f.rows[k], col).Int?
  }

  /** The stock table of the inventory page (the rows whose IDs can be
      selected for deletion): positive stock, the category filter, and the
      search text inside the item name. Searching a column holding a
      non-text item name raises. */
  function InventoryView(f: Frame, category: string, search: string): (r: Option<seq<nat>>)
    requires HasColumn(f, "quantity")
    ensures r.Some? ==> HasColumn(f, "category") && HasColumn(f, "item_name")
    ensures r.Some? ==> forall k: nat :: k in r.value <==> k < |f.rows| && InView(f, f.rows[k], category, search)
    ensures r.None? <==>
              || !(HasColumn(f, "category") && HasColumn(f, "item_name") && HasColumn(f, "id") && HasColumn(f, "size"))
              || !Filterable(f, category)
              || (search != "" && AllIntegers(f, "item_name"))
              || (&& search != ""
                  && exists k :: 0 <= k < |f.rows| && Offerable(f, f.rows[k], category)
                                 && !Get(f, f.rows[k], "item_name").Str?)
  {
    if !(HasColumn(f, "category") && HasColumn(f, "item_name") && HasColumn(f, "id") && HasColumn(f, "size")) then None
    else match Offered(f, category)
      case None => None
      case Some(offered) =>
        if search == "" then Some(offered)
        else if AllIntegers(f, "item_name") then None
        else if exists q :: 0 <= q < |offered| && !Get(f, f.rows[offered[q]], "item_name").Str? then None
        else Some(Searched(f, offered, search))
  }

  function Searched(f: Frame, offered: seq<nat>, search: string): (r: seq<nat>)
    requires HasColumn(f, "item_name")
    requires forall q :: 0 <= q < |offered| ==> offered[q] < |f.rows| && Get(f, f.rows[offered[q]], "item_name").Str?
    ensures forall k :: k in r <==> k in offered && Contains(Get(f, f.rows[k], "item_name").s, search)
  {
    if |offered| == 0 then []
    else
      var k := offered[0];
      (if Contains(Get(f, f.rows[k], "item_name").s, search) then [k] else []) + Searched(f, offered[1..], search)
  }

  /** A search over a table whose item names all read as integers raises,
      even when no line has stock to show. */
  lemma IntegerNamesBreakSearch()
    ensures var f := Frame([Str("id"), Str("category"), Str("item_name"), Str("size"), Str("quantity")],
                           [[Int(1), Str("c"), Int(123), Str("s"), Int(0)]]);
            HasColumn(f, "quantity") && InventoryView(f, AllCategories, "1").None?
  {
    var f := Frame([Str("id"), Str("category"), Str("item_name"), Str("size"), Str("quantity")],
                   [[Int(1), Str("c"), Int(123), Str("s"), Int(0)]]);
    assert ColumnIndex(f.header, "item_name") == Some(2);
    assert AllIntegers(f, "item_name");
  }

  /** The save button of the edit expander: the name, then the quantity, of
      the row with the selected ID are overwritten, with no check on the
      quantity. */
  function EditItem(store: Store, id: int, name: string, qty: int): (r: Result<Store>)
    ensures r.Ok? <==> Inventory in store
    ensures r.Ok? ==> r.value.Keys == store.Keys
    ensures r.Ok? ==> forall n :: n in store && n != Inventory ==> r.value[n] == store[n]
  {
    match UpdateData(store, Inventory, Int(id), "item_name", Str(name))
    case NoSuchSheet(n) => NoSuchSheet(n)
    case Ok(s1) => UpdateData(s1, Inventory, Int(id), "quantity", Int(qty))
  }
}

=== FILE: ledger_proofs.dfy ===
/** Properties of the ledger handlers on a well-formed inventory worksheet. */
module LedgerProofs {
  import opened Decimal
  import opened Cells
  import opened Sheets
  import opened Ids
  import opened Ledger

  /** A header row with the inventory's columns where the inbound page
      puts them (further columns may follow). */
  predicate InventoryColumns(h: Row) {
    && ColumnIndex(h, "id") == Some(0)
    && ColumnIndex(h, "category") == Some(2)
    && ColumnIndex(h, "item_name") == Some(3)
    && ColumnIndex(h, "size") == Some(4)
    && ColumnIndex(h, "quantity") == Some(5)
    && ColumnIndex(h, "image_path") == Some(6)
  }

  /** The inventory worksheet as the inbound page lays it out, with
      ascending IDs. */
  predicate InventoryLayout(sh: Sheet) {
    IdsAscending(sh) && InventoryColumns(sh[0])
  }

  lemma HeaderHasInventoryColumns()
    ensures InventoryColumns(InventoryHeader)
  {
  }

  /** The identity key of data row `i`. */
  function KeyAt(sh: Sheet, i: nat): (k: Key)
    requires i < |sh|
  {
    Key(Cell(sh[i], 3), Cell(sh[i], 4), Cell(sh[i], 2))
  }

  /** At most one stock line per (item name, size, category). */
  predicate KeysUnique(sh: Sheet) {
    forall i, j :: 1 <= i < j < |sh| ==> KeyAt(sh, i) != KeyAt(sh, j)
  }

  /** Every stock line holds a non-negative integer quantity. */
  predicate StockNonNegative(sh: Sheet) {
    InventoryLayout(sh) && forall i :: 1 <= i < |sh| ==> Cell(sh[i], 5).Int? && Cell(sh[i], 5).i >= 0
  }

  /** A row before and after a write differs at most in columns `a` and `b`. */
  ghost predicate OnlyColumnsChanged(before: Row, after: Row, a: nat, b: nat) {
    forall c :: c != a && c != b ==> Cell(after, c) == Cell(before, c)
  }

  // ------------------------------------------------------------------ inbound

  /** On a well-formed inventory, the first data row with the probe key is
      what inbound's lookup finds. */
  lemma MatchFindsFirstKey(store: Store, key: Key, i: nat)
    requires Inventory in store && InventoryLayout(store[Inventory])
    requires 1 <= i < |store[Inventory]| && KeyAt(store[Inventory], i) == key
    requires forall k :: 1 <= k < i ==> KeyAt(store[Inventory], k) != key
    ensures MatchKey(GetData(store, Inventory), key) == Matched(i - 1)
  {
    var sh := store[Inventory];
    var f := GetData(store, Inventory);
    assert f.rows[i - 1] == sh[i];
    assert HasKey(f, f.rows[i - 1], key);
    forall k | 0 <= k < i - 1
      ensures !HasKey(f, f.rows[k], key)
    {
      assert f.rows[k] == sh[k + 1];
      assert KeyAt(sh, k + 1) != key;
    }
  }

  /** On a well-formed inventory with no data row holding the probe key,
      inbound's lookup finds nothing. */
  lemma MatchFindsNoKey(store: Store, key: Key)
    requires Inventory in store && InventoryLayout(store[Inventory])
    requires forall k :: 1 <= k < |store[Inventory]| ==> KeyAt(store[Inventory], k) != key
    ensures MatchKey(GetData(store, Inventory), key) == NoMatch
  {
    var sh := store[Inventory];
    var f := GetData(store, Inventory);
    if |f.rows| > 0 {
      forall k | 0 <= k < |f.rows|
        ensures !HasKey(f, f.rows[k], key)
      {
        assert f.rows[k] == sh[k + 1];
        assert KeyAt(sh, k + 1) != key;
      }
    }
  }

  /** `sh'` is `sh` with data row `i` merged with the event: quantity grown
      by the event's, picture replaced only when one was supplied, and no
      other cell or row changed. */
  ghost predicate MergedAt(sh: Sheet, sh': Sheet, i: nat, qty: int, image: string) {
    && 1 <= i < |sh| && Cell(sh[i], 5).Int?
    && |sh'| == |sh| && InventoryLayout(sh')
    && (forall k :: 0 <= k < |sh| && k != i ==> sh'[k] == sh[k])
    && Cell(sh'[i], 5) == Int(Cell(sh[i], 5).i + qty)
    && Cell(sh'[i], 6) == (if image == "" then Cell(sh[i], 6) else Normalize(Str(image)))
    && OnlyColumnsChanged(sh[i], sh'[i], 5, 6)
  }

  /** `sh'` is `sh` with cell `col` of data row `i` set to `v`, and no
      other cell or row changed. */
  ghost predicate CellSetAt(sh: Sheet, sh': Sheet, i: nat, col: nat, v: Value) {
    && 1 <= i < |sh|
    && |sh'| == |sh| && InventoryLayout(sh')
    && (forall k :: 0 <= k < |sh| && k != i ==> sh'[k] == sh[k])
    && Cell(sh'[i], col) == v
    && OnlyColumnsChanged(sh[i], sh'[i], col, col)
  }

  /** `update_data` by the ID of data row `i` on a well-formed inventory. */
  lemma CellWrite(sh: Sheet, sh': Sheet, i: nat, col: string, j: nat, v: Value)
    requires InventoryLayout(sh) && 1 <= i < |sh|
    requires col != "id" && ColumnIndex(sh[0], col) == Some(j)
    requires sh' == Updated(sh, sh[i][0], col, v)
    ensures CellSetAt(sh, sh', i, j, Normalize(v))
  {
    UpdateById(sh, i, col, j, v);
  }

  /** The quantity write followed, when a picture was supplied, by the
      picture write is a merge. */
  lemma MergeOfWrites(sh: Sheet, sh1: Sheet, sh': Sheet, i: nat, qty: int, image: string)
    requires 1 <= i < |sh| && Cell(sh[i], 5).Int?
    requires CellSetAt(sh, sh1, i, 5, Int(Cell(sh[i], 5).i + qty))
    requires image == "" ==> sh' == sh1
    requires image != "" ==> CellSetAt(sh1, sh', i, 6, Normalize(Str(image)))
    ensures MergedAt(sh, sh', i, qty, image)
  {
  }

  /** The inventory after the merge writes on the line with ID `id` and
      quantity `q`. */
  function MergeSheet(sh: Sheet, id: Value, q: int, ev: InboundEvent): (sh': Sheet) {
    var sh1 := Updated(sh, id, "quantity", Int(q + ev.qty));
    if ev.image == "" then sh1 else Updated(sh1, id, "image_path", Str(ev.image))
  }

  /** The two writes of a merge onto data row `i`, as one change of the
      worksheet. */
  lemma MergeWrites(sh: Sheet, sh': Sheet, ev: InboundEvent, i: nat)
    requires InventoryLayout(sh) && 1 <= i < |sh| && Cell(sh[i], 5).Int?
    requires sh' == MergeSheet(sh, sh[i][0], Cell(sh[i], 5).i, ev)
    ensures MergedAt(sh, sh', i, ev.qty, ev.image)
  {
    var sh1 := Updated(sh, sh[i][0], "quantity", Int(Cell(sh[i], 5).i + ev.qty));
    CellWrite(sh, sh1, i, "quantity", 5, Int(Cell(sh[i], 5).i + ev.qty));
    if ev.image != "" {
      assert sh1[i][0] == sh[i][0] by {
        assert Cell(sh1[i], 0) == Cell(sh[i], 0);
      }
      CellWrite(sh1, sh', i, "image_path", 6, Str(ev.image));
    }
    MergeOfWrites(sh, sh1, sh', i, ev.qty, ev.image);
  }

  /** The inventory worksheet after a merge's one or two cell writes. */
  lemma MergeStockSheets(store: Store, ev: InboundEvent, id: Value, q: int)
    requires Inventory in store
    ensures var run := MergeStock(store, ev, id, q);
            && (run.outcome == Accepted <==> InboundLogs in store)
            && run.store[Inventory] == MergeSheet(store[Inventory], id, q, ev)
  {
  }

  /** The writes of a new stock line: the event's fields appended under
      the next ID, then the journal row whenever its worksheet exists. */
  lemma CreateStockWrites(store: Store, ev: InboundEvent)
    requires Inventory in store
    ensures var run := CreateStock(store, ev);
            && (run.outcome == Accepted <==> InboundLogs in store)
            && run.store[Inventory] == Appended(store[Inventory], StockFields(ev))
  {
  }

  /** Inbound dispatches on the lookup: a match with readable `id` and
      integer `quantity` goes to the merge. */
  lemma InboundTakesMatch(store: Store, ev: InboundEvent, normalized: bool, m: nat)
    requires ev.itemName != ""
    requires MatchKey(GetData(store, Inventory), ProbeKey(ev, normalized)) == Matched(m)
    requires var f := GetData(store, Inventory);
             HasColumn(f, "id") && HasColumn(f, "quantity") && Get(f, f.rows[m], "quantity").Int?
    ensures var f := GetData(store, Inventory);
            InboundWith(store, ev, normalized) == MergeStock(store, ev, Get(f, f.rows[m], "id"), Get(f, f.rows[m], "quantity").i)
  {
  }

  /** The inventory after inbound of a key that some stock line has. */
  lemma InboundMergeSheet(store: Store, ev: InboundEvent, normalized: bool, i: nat)
    requires Inventory in store && InventoryLayout(store[Inventory])
    requires ev.itemName != ""
    requires 1 <= i < |store[Inventory]| && Cell(store[Inventory][i], 5).Int?
    requires KeyAt(store[Inventory], i) == ProbeKey(ev, normalized)
    requires forall k :: 1 <= k < i ==> KeyAt(store[Inventory], k) != ProbeKey(ev, normalized)
    ensures var run := InboundWith(store, ev, normalized);
            && (run.outcome == Accepted <==> InboundLogs in store)
            && run.store[Inventory] == MergeSheet(store[Inventory], store[Inventory][i][0], Cell(store[Inventory][i], 5).i, ev)
  {
    var sh := store[Inventory];
    var f := GetData(store, Inventory);
    MatchFindsFirstKey(store, ProbeKey(ev, normalized), i);
    var row := f.rows[i - 1];
    assert row == sh[i];
    assert sh[1..][i - 1][0].Int?;
    assert Get(f, row, "id") == sh[i][0];
    assert Get(f, row, "quantity") == Cell(sh[i], 5);
    InboundTakesMatch(store, ev, normalized, i - 1);
    MergeStockSheets(store, ev, Get(f, row, "id"), Get(f, row, "quantity").i);
  }

  /** Inbound of a key that some stock line has: the first such line's
      quantity grows by the event's quantity, its picture is replaced only
      when one was supplied, no line is added and no other line changes. */
  lemma InboundMergesIntoFirstMatch(store: Store, ev: InboundEvent, normalized: bool, i: nat)
    requires Inventory in store && InventoryLayout(store[Inventory])
    requires ev.itemName != ""
    requires 1 <= i < |store[Inventory]| && Cell(store[Inventory][i], 5).Int?
    requires KeyAt(store[Inventory], i) == ProbeKey(ev, normalized)
    requires forall k :: 1 <= k < i ==> KeyAt(store[Inventory], k) != ProbeKey(ev, normalized)
    ensures var run := InboundWith(store, ev, normalized);
            && (run.outcome == Accepted <==> InboundLogs in store)
            && MergedAt(store[Inventory], run.store[Inventory], i, ev.qty, ev.image)
  {
    InboundMergeSheet(store, ev, normalized, i);
    MergeWrites(store[Inventory], InboundWith(store, ev, normalized).store[Inventory], ev, i);
  }

  lemma InboundTakesNoMatch(store: Store, ev: InboundEvent, normalized: bool)
    requires ev.itemName != ""
    requires MatchKey(GetData(store, Inventory), ProbeKey(ev, normalized)) == NoMatch
    ensures InboundWith(store, ev, normalized) == CreateStock(store, ev)
  {
  }

  /** A merge candidate whose quantity `int()` cannot read aborts the
      handler before any write. */
  lemma InboundAbortsOnUnreadableQuantity(store: Store, ev: InboundEvent, normalized: bool, i: nat)
    requires Inventory in store && InventoryLayout(store[Inventory])
    requires ev.itemName != ""
    requires 1 <= i < |store[Inventory]| && !Cell(store[Inventory][i], 5).Int?
    requires KeyAt(store[Inventory], i) == ProbeKey(ev, normalized)
    requires forall k :: 1 <= k < i ==> KeyAt(store[Inventory], k) != ProbeKey(ev, normalized)
    ensures InboundWith(store, ev, normalized) == Run(store, Aborted)
  {
    var sh := store[Inventory];
    var f := GetData(store, Inventory);
    MatchFindsFirstKey(store, ProbeKey(ev, normalized), i);
    assert f.rows[i - 1] == sh[i];
  }

  /** The new stock line inbound appends carries the event's key as a
      read returns it. */
  lemma StockLineKey(sh: Sheet, ev: InboundEvent)
    ensures var sh' := Appended(sh, StockFields(ev));
            KeyAt(sh', |sh|) == ProbeKey(ev, true) && Cell(sh'[|sh|], 5) == Int(ev.qty)
  {
    var fields := [Int(NextId(sh))] + StockFields(ev);
    var row := Appended(sh, StockFields(ev))[|sh|];
    assert row == NormalizeRow(fields);
    assert |row| == 7;
    assert fields[2] == Str(ev.category) && fields[3] == Str(ev.itemName);
    assert fields[4] == Str(ev.size) && fields[5] == Int(ev.qty);
    assert row[2] == Normalize(fields[2]) && row[3] == Normalize(fields[3]);
    assert row[4] == Normalize(fields[4]) && row[5] == Normalize(fields[5]);
  }

  /** Inbound of a key no stock line has: one line is appended under the
      next ID carrying the event's key and quantity, and nothing else in
      the inventory changes. */
  lemma InboundAppendsNewLine(store: Store, ev: InboundEvent, normalized: bool)
    requires Inventory in store && InventoryLayout(store[Inventory])
    requires ev.itemName != ""
    requires forall k :: 1 <= k < |store[Inventory]| ==> KeyAt(store[Inventory], k) != ProbeKey(ev, normalized)
    ensures var sh, run := store[Inventory], InboundWith(store, ev, normalized);
            && (run.outcome == Accepted <==> InboundLogs in store)
            && run.store[Inventory] == Appended(sh, StockFields(ev))
            && InventoryLayout(run.store[Inventory])
            && run.store[Inventory][|sh|][0] == Int(NextId(sh))
            && KeyAt(run.store[Inventory], |sh|) == ProbeKey(ev, true)
            && Cell(run.store[Inventory][|sh|], 5) == Int(ev.qty)
  {
    var sh := store[Inventory];
    MatchFindsNoKey(store, ProbeKey(ev, normalized));
    InboundTakesNoMatch(store, ev, normalized);
    CreateStockWrites(store, ev);
    AppendKeepsIdsAscending(sh, StockFields(ev));
    StockLineKey(sh, ev);
  }

  // ------------------------------------------------------- stock per key

  /** The first data row at or after `from` with the key. */
  function FirstKey(sh: Sheet, key: Key, from: nat): (r: Option<nat>)
    requires 1 <= from <= |sh|
    ensures r.Some? ==> from <= r.value < |sh| && KeyAt(sh, r.value) == key
    ensures r.Some? ==> forall k :: from <= k < r.value ==> KeyAt(sh, k) != key
    ensures r.None? ==> forall k :: from <= k < |sh| ==> KeyAt(sh, k) != key
    decreases |sh| - from
  {
    if from == |sh| then None
    else if KeyAt(sh, from) == key then Some(from)
    else FirstKey(sh, key, from + 1)
  }

  /** The stock held under a key: the quantity of the first line with the
      key, 0 when there is none. */
  function StockOf(sh: Sheet, key: Key): (n: int)
    requires |sh| >= 1
  {
    match FirstKey(sh, key, 1)
    case None => 0
    case Some(i) => if Cell(sh[i], 5).Int? then Cell(sh[i], 5).i else 0
  }

  /** Where the first row with a key lies depends only on the keys. */
  lemma {:induction false} FirstKeyFollowsKeys(sh: Sheet, sh': Sheet, key: Key, from: nat)
    requires 1 <= from <= |sh| <= |sh'|
    requires forall k :: 1 <= k < |sh| ==> KeyAt(sh', k) == KeyAt(sh, k)
    requires forall k :: |sh| <= k < |sh'| ==> KeyAt(sh', k) != key
    ensures FirstKey(sh', key, from) == FirstKey(sh, key, from)
    decreases |sh'| - from
  {
    if from < |sh| {
      if KeyAt(sh, from) != key {
        FirstKeyFollowsKeys(sh, sh', key, from + 1);
      }
    }
  }

  /** A merge writes only quantity and picture: every line keeps its key. */
  lemma MergeKeepsKeys(sh: Sheet, sh': Sheet, i: nat, qty: int, image: string)
    requires MergedAt(sh, sh', i, qty, image)
    ensures forall k :: 1 <= k < |sh| ==> KeyAt(sh', k) == KeyAt(sh, k)
  {
    forall k | 1 <= k < |sh| ensures KeyAt(sh', k) == KeyAt(sh, k) {
      if k == i {
        assert Cell(sh'[i], 2) == Cell(sh[i], 2);
        assert Cell(sh'[i], 3) == Cell(sh[i], 3);
        assert Cell(sh'[i], 4) == Cell(sh[i], 4);
      }
    }
  }

  /** Appending keeps every existing line's key. */
  lemma AppendKeepsKeys(sh: Sheet, fields: Row)
    ensures forall k :: 1 <= k < |sh| ==> KeyAt(Appended(sh, fields), k) == KeyAt(sh, k)
  {
    var sh' := Appended(sh, fields);
    forall k | 1 <= k < |sh| ensures KeyAt(sh', k) == KeyAt(sh, k) {
      assert sh'[k] == sh'[..|sh|][k];
    }
  }

  /** The inventory after the corrected inbound, on a well-formed
      inventory with non-negative stock, unique keys and a positive
      quantity (the form's minimum is 1): the same worksheet when the item
      name is empty; otherwise the stock under the event's key grows by the
      event's quantity, the stock under every other key is unchanged, the
      line count grows by one exactly when the key was new, and the
      invariants still hold. */
  lemma InboundAddsStock(store: Store, ev: InboundEvent)
    requires Inventory in store && StockNonNegative(store[Inventory]) && KeysUnique(store[Inventory])
    requires ev.qty >= 1
    ensures var sh, sh' := store[Inventory], Inbound(store, ev).store[Inventory];
            && StockNonNegative(sh') && KeysUnique(sh')
            && (ev.itemName == "" ==> sh' == sh)
            && (ev.itemName != "" ==>
                  && StockOf(sh', ProbeKey(ev, true)) == StockOf(sh, ProbeKey(ev, true)) + ev.qty
                  && (forall other :: other != ProbeKey(ev, true) ==> StockOf(sh', other) == StockOf(sh, other))
                  && (|sh'| == |sh| + 1 <==> FirstKey(sh, ProbeKey(ev, true), 1).None?)
                  && (|sh'| == |sh| <==> FirstKey(sh, ProbeKey(ev, true), 1).Some?))
  {
    var sh := store[Inventory];
    if ev.itemName != "" {
      var key := ProbeKey(ev, true);
      match FirstKey(sh, key, 1)
      case Some(i) =>
        InboundMergesIntoFirstMatch(store, ev, true, i);
        var sh' := Inbound(store, ev).store[Inventory];
        MergeKeepsKeys(sh, sh', i, ev.qty, ev.image);
        MergedStock(sh, sh', i, ev.qty, ev.image);
      case None =>
        InboundAppendsNewLine(store, ev, true);
        AppendedStock(sh, ev);
    }
  }

  /** A merge of a non-negative quantity keeps every line's stock
      non-negative. */
  lemma MergedNonNegative(sh: Sheet, sh': Sheet, i: nat, qty: int, image: string)
    requires MergedAt(sh, sh', i, qty, image) && StockNonNegative(sh) && qty >= 0
    ensures StockNonNegative(sh')
  {
  }

  /** A new line with a non-negative quantity keeps every line's stock
      non-negative. */
  lemma AppendedNonNegative(sh: Sheet, sh': Sheet)
    requires StockNonNegative(sh) && InventoryLayout(sh')
    requires |sh'| == |sh| + 1 && sh'[..|sh|] == sh
    requires Cell(sh'[|sh|], 5).Int? && Cell(sh'[|sh|], 5).i >= 0
    ensures StockNonNegative(sh')
  {
    forall k | 1 <= k < |sh'|
      ensures Cell(sh'[k], 5).Int? && Cell(sh'[k], 5).i >= 0
    {
      if k < |sh| {
        assert sh'[k] == sh'[..|sh|][k];
      }
    }
  }

  /** Inbound keeps stock non-negative with either key comparison, the
      page's as written included: it either merges into a line or appends
      one, and never removes a line. */
  lemma InboundKeepsStockNonNegative(store: Store, ev: InboundEvent, normalized: bool)
    requires Inventory in store && StockNonNegative(store[Inventory])
    requires ev.qty >= 1
    ensures var sh, sh' := store[Inventory], InboundWith(store, ev, normalized).store[Inventory];
            && StockNonNegative(sh')
            && (|sh'| == |sh| || |sh'| == |sh| + 1)
  {
    var sh := store[Inventory];
    if ev.itemName != "" {
      var sh' := InboundWith(store, ev, normalized).store[Inventory];
      match FirstKey(sh, ProbeKey(ev, normalized), 1)
      case Some(i) =>
        InboundMergesIntoFirstMatch(store, ev, normalized, i);
        MergedNonNegative(sh, sh', i, ev.qty, ev.image);
      case None =>
        InboundAppendsNewLine(store, ev, normalized);
        AppendedNonNegative(sh, sh');
    }
  }

  /** Stock per key after a merge onto the first line with the key. */
  lemma MergedStock(sh: Sheet, sh': Sheet, i: nat, qty: int, image: string)
    requires MergedAt(sh, sh', i, qty, image) && StockNonNegative(sh) && KeysUnique(sh) && qty >= 1
    requires forall k :: 1 <= k < |sh| ==> KeyAt(sh', k) == KeyAt(sh, k)
    ensures StockNonNegative(sh') && KeysUnique(sh')
    ensures StockOf(sh', KeyAt(sh, i)) == StockOf(sh, KeyAt(sh, i)) + qty
    ensures forall other :: other != KeyAt(sh, i) ==> StockOf(sh', other) == StockOf(sh, other)
  {
    var key := KeyAt(sh, i);
    FirstKeyFollowsKeys(sh, sh', key, 1);
    assert FirstKey(sh, key, 1) == Some(i);
    forall other | other != key ensures StockOf(sh', other) == StockOf(sh, other) {
      FirstKeyFollowsKeys(sh, sh', other, 1);
    }
  }

  /** Stock per key after a new line for a key no line had. */
  lemma AppendedStock(sh: Sheet, ev: InboundEvent)
    requires StockNonNegative(sh) && KeysUnique(sh) && ev.qty >= 1
    requires FirstKey(sh, ProbeKey(ev, true), 1).None?
    ensures var sh' := Appended(sh, StockFields(ev));
            && StockNonNegative(sh') && KeysUnique(sh')
            && StockOf(sh', ProbeKey(ev, true)) == ev.qty
            && forall other :: other != ProbeKey(ev, true) ==> StockOf(sh', other) == StockOf(sh, other)
  {
    var key := ProbeKey(ev, true);
    var sh' := Appended(sh, StockFields(ev));
    AppendKeepsIdsAscending(sh, StockFields(ev));
    AppendKeepsKeys(sh, StockFields(ev));
    StockLineKey(sh, ev);
    assert FirstKey(sh', key, 1) == Some(|sh|);
    forall other | other != key ensures StockOf(sh', other) == StockOf(sh, other) {
      FirstKeyFollowsKeys(sh, sh', other, 1);
    }
  }

  /** Two presses of the corrected inbound with the same event: the second
      always merges, so the key ends up on one line holding both
      quantities. */
  lemma RepeatedInboundMerges(store: Store, ev: InboundEvent)
    requires Inventory in store && StockNonNegative(store[Inventory]) && KeysUnique(store[Inventory])
    requires ev.itemName != "" && ev.qty >= 1
    ensures var s1 := Inbound(store, ev).store;
            var s2 := Inbound(s1, ev).store;
            && Inventory in s1
            && |s2[Inventory]| == |s1[Inventory]| <= |store[Inventory]| + 1
            && StockOf(s2[Inventory], ProbeKey(ev, true)) == StockOf(store[Inventory], ProbeKey(ev, true)) + 2 * ev.qty
            && KeysUnique(s2[Inventory])
  {
    InboundAddsStock(store, ev);
    var s1 := Inbound(store, ev).store;
    InboundAddsStock(s1, ev);
  }

  // ------------------------------------------------------ as-written inbound

  /** The inbound page as written compares the raw size text with what the
      worksheet hands back, which is an integer for a shoe size such as
      "250". So when a line with the event's key exists, inbound still
      appends a second line with the same key. */
  lemma AsWrittenInboundDuplicatesKey(store: Store, ev: InboundEvent, i: nat)
    requires Inventory in store && InventoryLayout(store[Inventory])
    requires ev.itemName != "" && IsIntText(ev.size)
    requires forall k :: 1 <= k < |store[Inventory]| ==> Normal(Cell(store[Inventory][k], 4))
    requires 1 <= i < |store[Inventory]| && KeyAt(store[Inventory], i) == ProbeKey(ev, true)
    ensures var sh, sh' := store[Inventory], InboundAsWritten(store, ev).store[Inventory];
            && sh' == Appended(sh, StockFields(ev))
            && KeyAt(sh', i) == KeyAt(sh', |sh|)
            && !KeysUnique(sh')
  {
    var sh := store[Inventory];
    forall k | 1 <= k < |sh| ensures KeyAt(sh, k) != ProbeKey(ev, false) {
      assert Normal(Cell(sh[k], 4));
    }
    InboundAppendsNewLine(store, ev, false);
    AppendKeepsKeys(sh, StockFields(ev));
  }

  /** A concrete case: 5 pairs of shoes in size 250 on line 1, then an
      inbound of 3 more in size "250". */
  const ShoeSheet: Sheet := [InventoryHeader, [Int(1), Str("2024-03-01"), Str("신발"), Str("운동화"), Int(250), Int(5), Str("")]]
  const ShoeEvent := InboundEvent("2024-03-02", "신발", "운동화", "250", 3, "")
  const ShoeStore: Store := map[Inventory := ShoeSheet, InboundLogs := [[Str("id")]]]

  lemma ShoeSheetIsWellFormed()
    ensures InventoryLayout(ShoeSheet) && Normal(Cell(ShoeSheet[1], 4)) && Cell(ShoeSheet[1], 5) == Int(5)
    ensures KeyAt(ShoeSheet, 1) == Key(Str("운동화"), Int(250), Str("신발"))
  {
    assert ShoeSheet[1..] == [ShoeSheet[1]];
    HeaderHasInventoryColumns();
  }

  lemma ShoeEventKey()
    ensures IsIntText(ShoeEvent.size)
    ensures ProbeKey(ShoeEvent, true) == Key(Str("운동화"), Int(250), Str("신발"))
  {
    var t, n, c := "250", "운동화", "신발";
    assert IsDigits(t) by {
      assert IsDigit(t[0]) && IsDigit(t[1]) && IsDigit(t[2]);
    }
    assert NatText(250) == t;
    NatTextRoundTrip(250);
    assert !IsDigit(n[0]) && !IsDigit(c[0]);
  }

  /** On that case the page as written appends a second line for the same
      shoe, while the corrected inbound brings line 1 to 8 pairs. */
  lemma ShoeSizeInboundDuplicates()
    ensures InboundAsWritten(ShoeStore, ShoeEvent).outcome == Accepted
    ensures |InboundAsWritten(ShoeStore, ShoeEvent).store[Inventory]| == 3
    ensures !KeysUnique(InboundAsWritten(ShoeStore, ShoeEvent).store[Inventory])
    ensures Inbound(ShoeStore, ShoeEvent).outcome == Accepted
    ensures |Inbound(ShoeStore, ShoeEvent).store[Inventory]| == 2
    ensures Cell(Inbound(ShoeStore, ShoeEvent).store[Inventory][1], 5) == Int(8)
  {
    ShoeSheetIsWellFormed();
    ShoeEventKey();
    assert ShoeStore[Inventory] == ShoeSheet;
    AsWrittenInboundDuplicatesKey(ShoeStore, ShoeEvent, 1);
    InboundAppendsNewLine(ShoeStore, ShoeEvent, false);
    InboundMergesIntoFirstMatch(ShoeStore, ShoeEvent, true, 1);
  }

  // ------------------------------------------------------------ distribution


  /** On a well-formed inventory, the data row a request resolves to. */
  lemma ChosenRow(store: Store, req: Request, k: nat)
    requires Inventory in store && InventoryLayout(store[Inventory])
    requires Choose(GetData(store, Inventory), req) == Chosen(k)
    ensures var f, sh := GetData(store, Inventory), store[Inventory];
            && k + 1 < |sh| && f.rows[k] == sh[k + 1]
            && Get(f, f.rows[k], "id") == sh[k + 1][0]
            && Get(f, f.rows[k], "quantity") == Cell(sh[k + 1], 5)
            && Get(f, f.rows[k], "size") == Cell(sh[k + 1], 4)
            && Cell(sh[k + 1], 5).Int? && Cell(sh[k + 1], 5).i > 0
            && (req.filter != AllCategories ==> Cell(sh[k + 1], 2) == Str(req.filter))
            && Cell(sh[k + 1], 3) == req.item && Cell(sh[k + 1], 4) == req.option.size
  {
  }

  /** Once the request resolves to a row, the handler is the guarded
      decrement on that row. */
  lemma DistributeChosen(store: Store, req: Request, k: nat)
    requires Inventory in store && InventoryLayout(store[Inventory])
    requires Choose(GetData(store, Inventory), req) == Chosen(k)
    ensures k + 1 < |store[Inventory]|
    ensures Distribute(store, req) == Decrement(store, GetData(store, Inventory), store[Inventory][k + 1], req)
  {
    ChosenRow(store, req, k);
  }

  /** The guarded decrement when the table has an `id` column: with enough
      stock the quantity write, then the journal row. */
  lemma DecrementStep(store: Store, f: Frame, row: Row, req: Request, run: Run)
    requires Inventory in store
    requires HasColumn(f, "quantity") && HasColumn(f, "size") && HasColumn(f, "id") && Get(f, row, "quantity").Int?
    requires run == Decrement(store, f, row, req)
    ensures var current := Get(f, row, "quantity").i;
            current >= req.qty ==>
              && (run.outcome == Accepted <==> DistributionLogs in store)
              && run.store[Inventory] == Updated(store[Inventory], Get(f, row, "id"), "quantity", Int(current - req.qty))
              && (DistributionLogs in store ==>
                    run.store[DistributionLogs] == Appended(store[DistributionLogs], DistributionFields(f, row, req)))
  {
    assert DistributionLogs != Inventory;
  }

  lemma ChosenJournalFields(f: Frame, row: Row, req: Request)
    requires ColumnIndex(f.header, "size") == Some(4) && Cell(row, 4) == req.option.size
    ensures DistributionFields(f, row, req)
              == [Str(req.date), Str(req.targetType), req.targetName, req.item, req.option.size, Int(req.qty)]
  {
  }

  /** The guarded decrement on line `i` of a well-formed inventory, as
      worksheets: the inventory after a granted request is the quantity
      write on that line. */
  lemma DecrementSheets(store: Store, req: Request, i: nat, run: Run)
    requires Inventory in store && InventoryLayout(store[Inventory])
    requires 1 <= i < |store[Inventory]| && Cell(store[Inventory][i], 5).Int?
    requires Cell(store[Inventory][i], 4) == req.option.size
    requires run == Decrement(store, GetData(store, Inventory), store[Inventory][i], req)
    ensures var sh, current := store[Inventory], Cell(store[Inventory][i], 5).i;
            && (current < req.qty ==> run == Run(store, Rejected(InsufficientStock(current))))
            && (current >= req.qty ==>
                  && (run.outcome == Accepted <==> DistributionLogs in store)
                  && run.store[Inventory] == Updated(sh, sh[i][0], "quantity", Int(current - req.qty))
                  && (DistributionLogs in store ==>
                        run.store[DistributionLogs] == Appended(store[DistributionLogs],
                          [Str(req.date), Str(req.targetType), req.targetName, req.item, req.option.size, Int(req.qty)])))
  {
    var sh, f := store[Inventory], GetData(store, Inventory);
    LineInFrame(store, i);
    DecrementStep(store, f, sh[i], req, run);
    ChosenJournalFields(f, sh[i], req);
  }

  /** The guarded decrement on line `i` of a well-formed inventory, in
      terms of the worksheet: too little stock changes nothing and reports
      what is there; otherwise the line's quantity drops by the request,
      nothing else in the inventory changes, and the journal gets one row
      whenever its worksheet exists. */
  lemma DecrementLine(store: Store, req: Request, i: nat, run: Run)
    requires Inventory in store && InventoryLayout(store[Inventory])
    requires 1 <= i < |store[Inventory]| && Cell(store[Inventory][i], 5).Int?
    requires Cell(store[Inventory][i], 4) == req.option.size
    requires run == Decrement(store, GetData(store, Inventory), store[Inventory][i], req)
    ensures var sh, current := store[Inventory], Cell(store[Inventory][i], 5).i;
            && (current < req.qty ==> run == Run(store, Rejected(InsufficientStock(current))))
            && (current >= req.qty ==>
                  && (run.outcome == Accepted <==> DistributionLogs in store)
                  && CellSetAt(sh, run.store[Inventory], i, 5, Int(current - req.qty))
                  && (DistributionLogs in store ==>
                        run.store[DistributionLogs] == Appended(store[DistributionLogs],
                          [Str(req.date), Str(req.targetType), req.targetName, req.item, req.option.size, Int(req.qty)])))
  {
    DecrementSheets(store, req, i, run);
    var sh := store[Inventory];
    if Cell(sh[i], 5).i >= req.qty {
      CellWrite(sh, run.store[Inventory], i, "quantity", 5, Int(Cell(sh[i], 5).i - req.qty));
    }
  }

  /** Line `i` of a well-formed inventory as the pages read it. */
  lemma LineInFrame(store: Store, i: nat)
    requires Inventory in store && InventoryLayout(store[Inventory]) && 1 <= i < |store[Inventory]|
    ensures var sh, f := store[Inventory], GetData(store, Inventory);
            && f.rows[i - 1] == sh[i]
            && HasColumn(f, "id") && HasColumn(f, "quantity") && HasColumn(f, "size")
            && ColumnIndex(f.header, "size") == Some(4)
            && Get(f, sh[i], "id") == sh[i][0]
            && Get(f, sh[i], "quantity") == Cell(sh[i], 5)
  {
    assert store[Inventory][1..][i - 1] == store[Inventory][i];
  }

  /** Data line `i` is offered under the request's category filter and
      shows the requested item, size and stock. */
  predicate LineShows(sh: Sheet, i: nat, req: Request)
    requires i < |sh|
  {
    && Cell(sh[i], 5).Int? && Cell(sh[i], 5).i > 0
    && (req.filter != AllCategories ==> Cell(sh[i], 2) == Str(req.filter))
    && Cell(sh[i], 3) == req.item && Cell(sh[i], 4) == req.option.size && Cell(sh[i], 5) == req.option.stock
  }

  /** What the distribution page sees of data line `k + 1`. */
  lemma ShowsInFrame(store: Store, req: Request, k: nat)
    requires Inventory in store && InventoryLayout(store[Inventory]) && k + 1 < |store[Inventory]|
    ensures var f := GetData(store, Inventory);
            && HasColumn(f, "quantity") && HasColumn(f, "item_name") && HasColumn(f, "size") && HasColumn(f, "category")
            && (Offerable(f, f.rows[k], req.filter) && ShowsOption(f, f.rows[k], req.item, req.option)
                <==> LineShows(store[Inventory], k + 1, req))
  {
    assert GetData(store, Inventory).rows[k] == store[Inventory][k + 1];
  }

  /** On a well-formed inventory with non-negative stock, a request resolves
      to the last line that is offered and shows the requested entry. */
  lemma ChooseFindsLastShowing(store: Store, req: Request, i: nat)
    requires Inventory in store && StockNonNegative(store[Inventory])
    requires 1 <= i < |store[Inventory]| && LineShows(store[Inventory], i, req)
    requires forall k :: i < k < |store[Inventory]| ==> !LineShows(store[Inventory], k, req)
    ensures Choose(GetData(store, Inventory), req) == Chosen(i - 1)
  {
    var sh, f := store[Inventory], GetData(store, Inventory);
    ShowsInFrame(store, req, i - 1);
    forall j | 0 <= j < |f.rows|
      ensures Get(f, f.rows[j], "quantity").Int?
    {
      assert f.rows[j] == sh[j + 1];
    }
    assert Filterable(f, req.filter);
    var c := Choose(f, req);
    assert c.Chosen?;
    ShowsInFrame(store, req, c.index);
    assert i - 1 <= c.index;
  }

  /** A request for the last offered line that shows the chosen entry, with
      no more than that line holds, is accepted when the journal exists: the
      line's quantity drops by the request, nothing else in the inventory
      changes, and the journal gets its row. */
  lemma DistributeServesLastShowing(store: Store, req: Request, i: nat)
    requires Inventory in store && StockNonNegative(store[Inventory]) && DistributionLogs in store
    requires 1 <= i < |store[Inventory]| && LineShows(store[Inventory], i, req)
    requires forall k :: i < k < |store[Inventory]| ==> !LineShows(store[Inventory], k, req)
    requires req.qty <= Cell(store[Inventory][i], 5).i
    ensures var sh, run := store[Inventory], Distribute(store, req);
            && run.outcome == Accepted
            && CellSetAt(sh, run.store[Inventory], i, 5, Int(Cell(sh[i], 5).i - req.qty))
            && run.store[DistributionLogs] == Appended(store[DistributionLogs],
                 [Str(req.date), Str(req.targetType), req.targetName, req.item, req.option.size, Int(req.qty)])
  {
    ChooseFindsLastShowing(store, req, i);
    DistributeChosen(store, req, i - 1);
    DecrementLine(store, req, i, Distribute(store, req));
  }

  /** A request that resolves to no row changes nothing. */
  lemma DistributeWithoutChoice(store: Store, req: Request)
    requires !Choose(GetData(store, Inventory), req).Chosen?
    ensures Distribute(store, req).store == store
    ensures Distribute(store, req).outcome != Accepted
  {
  }

  /** Stock per key after a quantity write on a line with a key no other
      line has. */
  lemma QuantitySetStock(sh: Sheet, sh': Sheet, i: nat, q: int)
    requires CellSetAt(sh, sh', i, 5, Int(q)) && StockNonNegative(sh) && KeysUnique(sh) && q >= 0
    ensures StockNonNegative(sh') && KeysUnique(sh')
    ensures StockOf(sh', KeyAt(sh, i)) == q
    ensures forall other :: other != KeyAt(sh, i) ==> StockOf(sh', other) == StockOf(sh, other)
  {
    var key := KeyAt(sh, i);
    forall k | 1 <= k < |sh| ensures KeyAt(sh', k) == KeyAt(sh, k) {
      if k == i {
        assert Cell(sh'[i], 2) == Cell(sh[i], 2);
        assert Cell(sh'[i], 3) == Cell(sh[i], 3);
        assert Cell(sh'[i], 4) == Cell(sh[i], 4);
      }
    }
    FirstKeyFollowsKeys(sh, sh', key, 1);
    assert FirstKey(sh, key, 1) == Some(i);
    forall other | other != key ensures StockOf(sh', other) == StockOf(sh, other) {
      FirstKeyFollowsKeys(sh, sh', other, 1);
    }
  }

  /** Taking `qty` from line `i` when it holds at least that much, on the
      worksheet: the stock under the line's key drops by `qty`. */
  lemma TakeStock(sh: Sheet, sh': Sheet, i: nat, qty: int)
    requires StockNonNegative(sh) && KeysUnique(sh) && 1 <= i < |sh|
    requires Cell(sh[i], 5).Int? && Cell(sh[i], 5).i >= qty
    requires CellSetAt(sh, sh', i, 5, Int(Cell(sh[i], 5).i - qty))
    ensures StockNonNegative(sh') && KeysUnique(sh')
    ensures StockOf(sh', KeyAt(sh, i)) == StockOf(sh, KeyAt(sh, i)) - qty
    ensures forall other :: other != KeyAt(sh, i) ==> StockOf(sh', other) == StockOf(sh, other)
  {
    QuantitySetStock(sh, sh', i, Cell(sh[i], 5).i - qty);
    assert FirstKey(sh, KeyAt(sh, i), 1) == Some(i);
  }

  /** The guarded decrement on line `i`, per key: the invariants hold
      afterwards, a refusal leaves the inventory as it was, and an accepted
      request takes its quantity from the line's key alone. */
  lemma DecrementTakesStock(store: Store, req: Request, i: nat, run: Run)
    requires Inventory in store && StockNonNegative(store[Inventory]) && KeysUnique(store[Inventory])
    requires 1 <= i < |store[Inventory]| && Cell(store[Inventory][i], 4) == req.option.size
    requires run == Decrement(store, GetData(store, Inventory), store[Inventory][i], req)
    ensures var sh := store[Inventory];
            && StockNonNegative(run.store[Inventory]) && KeysUnique(run.store[Inventory])
            && (run.outcome.Rejected? ==> run.store[Inventory] == sh)
            && (run.outcome == Accepted ==>
                  && StockOf(run.store[Inventory], KeyAt(sh, i)) == StockOf(sh, KeyAt(sh, i)) - req.qty
                  && forall other :: other != KeyAt(sh, i) ==> StockOf(run.store[Inventory], other) == StockOf(sh, other))
  {
    var sh := store[Inventory];
    DecrementLine(store, req, i, run);
    if Cell(sh[i], 5).i >= req.qty {
      TakeStock(sh, run.store[Inventory], i, req.qty);
    }
  }

  /** Distribution keeps stock non-negative and keys unique whatever the
      request; when it is accepted, the stock under the chosen line's key
      drops by the requested quantity and every other key's stock stays. */
  lemma DistributeTakesStock(store: Store, req: Request)
    requires Inventory in store && StockNonNegative(store[Inventory]) && KeysUnique(store[Inventory])
    ensures var sh, run := store[Inventory], Distribute(store, req);
            && StockNonNegative(run.store[Inventory]) && KeysUnique(run.store[Inventory])
            && (run.outcome.Rejected? ==> run.store[Inventory] == sh)
            && (run.outcome == Accepted ==>
                  var k := Choose(GetData(store, Inventory), req).index;
                  && k + 1 < |sh|
                  && StockOf(run.store[Inventory], KeyAt(sh, k + 1)) == StockOf(sh, KeyAt(sh, k + 1)) - req.qty
                  && forall other :: other != KeyAt(sh, k + 1) ==> StockOf(run.store[Inventory], other) == StockOf(sh, other))
  {
    var sh := store[Inventory];
    match Choose(GetData(store, Inventory), req)
    case Chosen(k) =>
      ChosenRow(store, req, k);
      DistributeChosen(store, req, k);
      DecrementTakesStock(store, req, k + 1, Distribute(store, req));
    case _ =>
      DistributeWithoutChoice(store, req);
  }

  /** Distribution keeps stock non-negative whatever the request, also on an
      inventory whose keys are no longer unique: the only write takes stock
      from one line, and only when the line holds at least the request. */
  lemma DistributeKeepsNonNegative(store: Store, req: Request)
    requires Inventory in store && StockNonNegative(store[Inventory])
    ensures StockNonNegative(Distribute(store, req).store[Inventory])
  {
    match Choose(GetData(store, Inventory), req)
    case Chosen(k) =>
      ChosenRow(store, req, k);
      DistributeChosen(store, req, k);
      DecrementKeepsNonNegative(store, req, k + 1, Distribute(store, req));
    case _ =>
      DistributeWithoutChoice(store, req);
  }

  /** The guarded decrement of line `i` keeps stock non-negative, with no
      assumption about keys. */
  lemma DecrementKeepsNonNegative(store: Store, req: Request, i: nat, run: Run)
    requires Inventory in store && StockNonNegative(store[Inventory])
    requires 1 <= i < |store[Inventory]| && Cell(store[Inventory][i], 4) == req.option.size
    requires run == Decrement(store, GetData(store, Inventory), store[Inventory][i], req)
    ensures StockNonNegative(run.store[Inventory])
  {
    var sh := store[Inventory];
    DecrementLine(store, req, i, run);
    if Cell(sh[i], 5).i >= req.qty {
      LoweredNonNegative(sh, run.store[Inventory], i, Cell(sh[i], 5).i - req.qty);
    }
  }

  /** Setting one line's quantity to a non-negative integer keeps stock
      non-negative. */
  lemma LoweredNonNegative(sh: Sheet, sh': Sheet, i: nat, n: int)
    requires StockNonNegative(sh) && CellSetAt(sh, sh', i, 5, Int(n)) && n >= 0
    ensures StockNonNegative(sh')
  {
  }

  // ------------------------------------------------------------ manual edit

  /** The edit expander's two writes on the inventory worksheet. */
  lemma EditItemSheet(store: Store, id: int, name: string, qty: int)
    requires Inventory in store
    ensures EditItem(store, id, name, qty)
              == Ok(store[Inventory := Updated(Updated(store[Inventory], Int(id), "item_name", Str(name)), Int(id), "quantity", Int(qty))])
  {
    var s1 := store[Inventory := Updated(store[Inventory], Int(id), "item_name", Str(name))];
    assert s1[Inventory := Updated(s1[Inventory], Int(id), "quantity", Int(qty))]
        == store[Inventory := Updated(Updated(store[Inventory], Int(id), "item_name", Str(name)), Int(id), "quantity", Int(qty))];
  }

  /** The same two writes on the line with the ID at row `i`. */
  lemma EditWrites(sh: Sheet, i: nat, name: string, qty: int)
    requires InventoryLayout(sh) && 1 <= i < |sh|
    ensures var sh' := Updated(Updated(sh, sh[i][0], "item_name", Str(name)), sh[i][0], "quantity", Int(qty));
            && |sh'| == |sh| && InventoryLayout(sh')
            && (forall k :: 0 <= k < |sh| && k != i ==> sh'[k] == sh[k])
            && Cell(sh'[i], 3) == Normalize(Str(name))
            && Cell(sh'[i], 5) == Int(qty)
            && OnlyColumnsChanged(sh[i], sh'[i], 3, 5)
  {
    UpdateById(sh, i, "item_name", 3, Str(name));
    var sh1 := Updated(sh, sh[i][0], "item_name", Str(name));
    assert sh1[i][0] == sh[i][0] by {
      assert Cell(sh1[i], 0) == Cell(sh[i], 0);
    }
    UpdateById(sh1, i, "quantity", 5, Int(qty));
  }

  /** The edit expander on the line with ID `id`: its item name and its
      quantity are overwritten, with no check on the quantity, and nothing
      else changes. */
  lemma EditOverwritesNameAndQuantity(store: Store, i: nat, name: string, qty: int)
    requires Inventory in store && InventoryLayout(store[Inventory]) && 1 <= i < |store[Inventory]|
    ensures var sh: Sheet := store[Inventory];
            var r := EditItem(store, sh[i][0].i, name, qty);
            && r.Ok?
            && var sh' := r.value[Inventory];
            && |sh'| == |sh| && InventoryLayout(sh')
            && (forall k :: 0 <= k < |sh| && k != i ==> sh'[k] == sh[k])
            && Cell(sh'[i], 3) == Normalize(Str(name))
            && Cell(sh'[i], 5) == Int(qty)
            && OnlyColumnsChanged(sh[i], sh'[i], 3, 5)
            && (qty < 0 ==> !StockNonNegative(sh'))
  {
    var sh: Sheet := store[Inventory];
    assert sh[i] == sh[1..][i - 1];
    EditItemSheet(store, sh[i][0].i, name, qty);
    EditWrites(sh, i, name, qty);
  }

  /** The edit expander on an ID no line holds changes nothing. */
  lemma EditMissingIdNoChange(store: Store, id: int, name: string, qty: int)
    requires Inventory in store && InventoryLayout(store[Inventory])
    requires forall k :: 1 <= k < |store[Inventory]| ==> store[Inventory][k][0] != Int(id)
    ensures EditItem(store, id, name, qty) == Ok(store)
  {
    var sh := store[Inventory];
    UpdateMissingId(sh, id, "item_name", Str(name));
    UpdateMissingId(sh, id, "quantity", Int(qty));
    assert store[Inventory := sh] == store;
  }
}

=== FILE: sheets.dfy ===
/** The record store: named worksheets and the three write helpers the
    ledger calls, `add_data`, `update_data` and `delete_data`, plus the
    read `get_data`.

    A worksheet is its grid of rows; row 0 is the header row that names the
    columns and the first column holds each row's ID. gspread's `find`
    searches the whole first column, header included, so the header stays
    part of the grid. */
module Sheets {
  import opened Decimal
  import opened Cells

  datatype Option<T> = None | Some(value: T)

  /** A worksheet: row 0 is the header row. */
  type Sheet = seq<Row>

  /** The spreadsheet: worksheets by name. */
  type Store = map<string, Sheet>

  /** A write either succeeds or raises because the worksheet does not exist
      (`sh.worksheet(name)` sits outside every `try`). */
  datatype Result<T> = Ok(value: T) | NoSuchSheet(name: string)

  /** The formatted text of a row's first (ID) cell. */
  function IdText(row: Row): (t: string) {
    Text(Cell(row, 0))
  }

  // ---------------------------------------------------------------- add_data

  /** Index of the last row before `k` whose ID cell is not empty; this is
      where `col_values(1)`, which drops trailing empty cells, ends. */
  function LastFilled(sh: Sheet, k: nat): (r: Option<nat>)
    requires k <= |sh|
    ensures r.Some? ==> r.value < k && IdText(sh[r.value]) != ""
    ensures r.Some? ==> forall j {:trigger IdText(sh[j])} :: r.value < j < k ==> IdText(sh[j]) == ""
    ensures r.None? ==> forall j {:trigger IdText(sh[j])} :: 0 <= j < k ==> IdText(sh[j]) == ""
  {
    if k == 0 then None
    else if IdText(sh[k - 1]) != "" then Some(k - 1)
    else LastFilled(sh, k - 1)
  }

  /** The ID `add_data` gives a new row: one more than the last non-empty
      ID cell when that cell lies below the header and is all digits, and 1
      otherwise. */
  function NextId(sh: Sheet): (id: nat)
    ensures id >= 1
  {
    match LastFilled(sh, |sh|)
    case None => 1
    case Some(k) =>
      var t := IdText(sh[k]);
      if k >= 1 && IsDigits(t) then DigitsValue(t) + 1 else 1
  }

  /** The worksheet after `add_data(fields)`: the row `[NextId] + fields`
      goes after the last row, its values stored as a later read returns
      them. */
  function Appended(sh: Sheet, fields: Row): (sh': Sheet)
    ensures |sh'| == |sh| + 1 && sh'[..|sh|] == sh
    ensures sh'[|sh|] == NormalizeRow([Int(NextId(sh))] + fields)
  {
    sh + [NormalizeRow([Int(NextId(sh))] + fields)]
  }

  /** `add_data(name, fields)` on the spreadsheet. */
  function AddData(store: Store, name: string, fields: Row): (r: Result<Store>)
    ensures r.Ok? <==> name in store
    ensures r.Ok? ==> r.value == store[name := Appended(store[name], fields)]
  {
    if name !in store then NoSuchSheet(name) else Ok(store[name := Appended(store[name], fields)])
  }

  // ------------------------------------------------------- find and header

  /** `find(str(key), in_column=1)`: the first row, header included, whose ID
      cell shows the same text as the key. */
  function Find(sh: Sheet, key: Value): (r: Option<nat>)
    ensures r.Some? ==> r.value < |sh| && IdText(sh[r.value]) == Text(key)
    ensures r.Some? ==> forall i {:trigger IdText(sh[i])} :: 0 <= i < r.value ==> IdText(sh[i]) != Text(key)
    ensures r.None? ==> forall i {:trigger IdText(sh[i])} :: 0 <= i < |sh| ==> IdText(sh[i]) != Text(key)
  {
    FindFrom(sh, key, 0)
  }

  function FindFrom(sh: Sheet, key: Value, from: nat): (r: Option<nat>)
    requires from <= |sh|
    ensures r.Some? ==> from <= r.value < |sh| && IdText(sh[r.value]) == Text(key)
    ensures forall i {:trigger IdText(sh[i])} :: from <= i < |sh| && (r.None? || i < r.value) ==> IdText(sh[i]) != Text(key)
    decreases |sh| - from
  {
    if from == |sh| then None
    else if IdText(sh[from]) == Text(key) then Some(from)
    else FindFrom(sh, key, from + 1)
  }

  /** `header.index(name)`: the first column whose header text is `name`. */
  function ColumnIndex(header: Row, name: string): (r: Option<nat>)
    ensures r.Some? ==> r.value < |header| && Text(header[r.value]) == name
    ensures r.Some? ==> forall j {:trigger Text(header[j])} :: 0 <= j < r.value ==> Text(header[j]) != name
    ensures r.None? ==> forall j {:trigger Text(header[j])} :: 0 <= j < |header| ==> Text(header[j]) != name
  {
    ColumnIndexFrom(header, name, 0)
  }

  function ColumnIndexFrom(header: Row, name: string, from: nat): (r: Option<nat>)
    requires from <= |header|
    ensures r.Some? ==> from <= r.value < |header| && Text(header[r.value]) == name
    ensures forall j {:trigger Text(header[j])} :: from <= j < |header| && (r.None? || j < r.value) ==> Text(header[j]) != name
    decreases |header| - from
  {
    if from == |header| then None
    else if Text(header[from]) == name then Some(from)
    else ColumnIndexFrom(header, name, from + 1)
  }

  // ------------------------------------------------------------- update_data

  /** The worksheet after `update_data(key, col, v)`: the cell in column
      `col` of the row `find` locates takes the value `v`; if the key or the
      column is not found the exception is swallowed and nothing changes. */
  function Updated(sh: Sheet, key: Value, col: string, v: Value): (sh': Sheet)
    ensures |sh'| == |sh|
    ensures (Find(sh, key).None? || ColumnIndex(sh[0], col).None?) ==> sh' == sh
    ensures Find(sh, key).Some? && ColumnIndex(sh[0], col).Some? ==>
              var i, j := Find(sh, key).value, ColumnIndex(sh[0], col).value;
              && Cell(sh'[i], j) == Normalize(v)
              && (forall k :: k != j ==> Cell(sh'[i], k) == Cell(sh[i], k))
              && (forall m {:trigger sh'[m]} :: 0 <= m < |sh| && m != i ==> sh'[m] == sh[m])
  {
    match Find(sh, key)
    case None => sh
    case Some(i) =>
      match ColumnIndex(sh[0], col)
      case None => sh
      case Some(j) => sh[i := SetCell(sh[i], j, Normalize(v))]
  }

  /** `update_data(name, key, col, v)` on the spreadsheet. */
  function UpdateData(store: Store, name: string, key: Value, col: string, v: Value): (r: Result<Store>)
    ensures r.Ok? <==> name in store
    ensures r.Ok? ==> r.value == store[name := Updated(store[name], key, col, v)]
  {
    if name !in store then NoSuchSheet(name) else Ok(store[name := Updated(store[name], key, col, v)])
  }

  // ------------------------------------------------------------- delete_data

  /** The worksheet after `delete_data(key)`: the row `find` locates is
      removed; if the key is not found nothing changes. */
  function Removed(sh: Sheet, key: Value): (sh': Sheet)
    ensures Find(sh, key).None? ==> sh' == sh
    ensures Find(sh, key).Some? ==> var i := Find(sh, key).value; sh' == sh[..i] + sh[i + 1..]
  {
    match Find(sh, key)
    case None => sh
    case Some(i) => sh[..i] + sh[i + 1..]
  }

  /** `delete_data(name, key)` on the spreadsheet. */
  function DeleteData(store: Store, name: string, key: Value): (r: Result<Store>)
    ensures r.Ok? <==> name in store
    ensures r.Ok? ==> r.value == store[name := Removed(store[name], key)]
  {
    if name !in store then NoSuchSheet(name) else Ok(store[name := Removed(store[name], key)])
  }

  /** The delete loop of the confirmation dialog: `delete_data` once per
      selected ID, in order. */
  function DeleteMany(store: Store, name: string, keys: seq<Value>): (r: Result<Store>)
    ensures r.Ok? <==> name in store || |keys| == 0
    ensures r.Ok? ==> r.value.Keys == store.Keys
    ensures r.Ok? ==> forall n :: n in store && n != name ==> r.value[n] == store[n]
    decreases |keys|
  {
    if |keys| == 0 then Ok(store)
    else
      match DeleteData(store, name, keys[0])
      case NoSuchSheet(n) => NoSuchSheet(n)
      case Ok(s1) => DeleteMany(s1, name, keys[1..])
  }

  // ---------------------------------------------------------------- get_data

  /** What `get_data` hands the pages: the header and the data rows. A
      missing worksheet reads as an empty table. */
  datatype Frame = Frame(header: Row, rows: seq<Row>)

  function GetData(store: Store, name: string): (f: Frame)
    ensures name in store && |store[name]| >= 1 ==> f.header == store[name][0] && f.rows == store[name][1..]
    ensures !(name in store && |store[name]| >= 1) ==> f.rows == []
  {
    if name in store && |store[name]| >= 1 then Frame(store[name][0], store[name][1..])
    else Frame([], [])
  }

  /** `col in df.columns` on a table pandas built from the records: an empty
      table has no columns. */
  predicate HasColumn(f: Frame, col: string) {
    |f.rows| > 0 && ColumnIndex(f.header, col).Some?
  }

  /** A table has a column exactly when it has data rows and some header
      cell shows the column's name. */
  lemma HasColumnListed(f: Frame, col: string)
    ensures HasColumn(f, col) <==> |f.rows| > 0 && exists j :: 0 <= j < |f.header| && Text(f.header[j]) == col
  {
    if |f.rows| > 0 && exists j :: 0 <= j < |f.header| && Text(f.header[j]) == col {
      var j :| 0 <= j < |f.header| && Text(f.header[j]) == col;
      assert ColumnIndex(f.header, col).Some?;
    }
  }

  /** `row[col]` for a column the table has. */
  function Get(f: Frame, row: Row, col: string): (v: Value)
    requires ColumnIndex(f.header, col).Some?
  {
    Cell(row, ColumnIndex(f.header, col).value)
  }
}
